=== FILE: README.md ===
# openai-go request model

A Dafny model of the request-building core of the `openai` Go client
package. Each endpoint is one straight-line pipeline. It runs those of the
following steps that apply to it, in this order:

1. Validate the options against their `binding` struct tags.
2. Fill defaults into the caller's options value.
3. Encode the body as a JSON object, a URL-encoded form or a multipart form.
4. Hand the body to `newReq`, which sets the Authorization, organization
   and Content-Type headers.

`ListModels` and `Moderate` take no options and do not validate. Only the
image and completion endpoints fill defaults. `doReq` counts the request,
dispatches it and classifies the reply.

Everything is modelled as pure functions over immutable values:

- `Client.Engine` is the engine's configuration plus its request counter.
- `Http.Request` carries the method, URL, a header map and an abstract body:
  - a JSON field map;
  - a list of key/value pairs;
  - an ordered list of multipart parts.
- The validator's verdict is a list of `Binding.FieldError`. It has one
  entry per failing field, naming the first tag that failed, in field
  order. The empty list means the options were accepted.
- The endpoints that fill defaults (`ImageCreate`, `ImageEdit`,
  `ImageVariation` and `Completion`) return a `Client.Prepared` value: the
  options as the endpoint left them (defaults written back) and the
  request, or the error that stopped it. `Transcribe`, `Translate` and
  `RetrieveModel` return the request or the error that stopped it.
  `ListModels` and `Moderate` cannot fail and return the request itself.
- `Client.Call` joins preparation and dispatch. What the transport did is
  an input (`Client.Exchange`): a transport error, or a status plus the
  result of decoding the error body.

Modules:

| module | file | models |
|---|---|---|
| `Wrappers` | wrappers.dfy | `Option` and `Result` |
| `Http` | http.dfy | requests, bodies, parts, header names |
| `Binding` | binding.dfy | the `required`, `min`, `max`, `oneof` and `omitempty` tags |
| `Client` | client.dfy | openai.go |
| `Strconv` | strconv.dfy | `strconv.Itoa`, plus a reference parser for it |
| `UrlValues` | urlvalues.dfy | `url.Values.Encode`, which orders pairs by key |
| `Images` | images.dfy | images.go |
| `Audio` | audio.dfy | audio.go |
| `Completions` | completions.dfy | completions.go |
| `Models` | models.dfy | models.go |
| `Moderation` | moderation.dfy | moderation.go |

Header names are stored the way `http.Header.Set` canonicalises them:
`Authorization`, `Openai-Organization` and `Content-Type`.

The validator's `max=n` on a string counts characters (runes). A Dafny
`string` is a sequence of characters, so for valid UTF-8 text `|s|` is that
count.

## Model

| member | source | states |
|---|---|---|
| Client.New | openai.go:31-42 | A new engine holds the given key and the default base URL `https://api.openai.com/v1`. It has no organization id and has counted no requests. |
| Client.SetApiKey | openai.go:45-47 | Only the API key changes; the base URL, the organization id and the counter are kept. |
| Client.SetOrganizationId | openai.go:50-52 | Only the organization id changes; the key, the base URL and the counter are kept. |
| Client.NewReq | openai.go:54-79 | The request keeps the method and URL. A missing body becomes the empty body. Authorization is exactly `Bearer <key>`. The organization header is present iff the id is non-empty, and then equals it. A Content-Type is always set: `json` gives `application/json`, `formData` gives `application/x-www-form-urlencoded`, and any other post type is copied verbatim. No other header is set. |
| Client.DoReq | openai.go:81-102 | The counter grows by exactly one whatever happens. A transport error is passed through. A 2xx reply is delivered. A non-2xx reply whose body decodes is rejected with that API error, its status code taken from the HTTP status iff the body's code was 0. A non-2xx reply whose body does not decode returns the decode error. |
| Client.Call | openai.go:81-102 | A request that failed to prepare is returned before dispatch, and the engine is unchanged. Otherwise exactly one request is counted and the key, base URL and organization id are kept. Only a 2xx reply succeeds. A transport error is returned as `Transport`. A non-2xx reply whose body does not decode is returned as `Decode`. A non-2xx reply whose body decodes is returned as `Api`, with the status code backfilled from the HTTP status iff the body's code was 0. |
| Client.TransportErrorPassesThrough | openai.go:83-86 | A transport error comes back unchanged and is never classified as an API error. |
| Client.CallCountsOnlyDispatched | openai.go:82 | The counter grows by one for each dispatched call and by none for a call stopped before dispatch. |
| Client.SetApiKeyChangesOnlyAuthorization | openai.go:45-47 | After a key change, the requests the engine builds differ only in the Authorization header. |
| Client.OrganizationHeaderFollowsSetter | openai.go:50-52 | A fresh engine sends no organization header. After the setter, the header is present iff the id is non-empty, and carries that id. |
| Client.UnauthorizedScenario | openai.go:97-101 | A 401 reply whose body has status code 0 yields an API error with code 401 and the body's message and type. |
| Strconv.Itoa | images.go:137 | The count is rendered as at least one character. It starts with a digit iff the count is non-negative, and with `-` iff it is negative. After the sign come only digits, with no leading zero unless the whole rendering is `0`: the canonical decimal form. |
| Strconv.Digits | images.go:137 | The rendering consists of digits only, with no leading zero: a leading `0` appears only in the one-character rendering of zero. |
| Strconv.DigitsValueOfDigits | images.go:137 | The digits of `n` read back as `n`. |
| Strconv.ItoaRoundTrip | images.go:137 | The rendering of any integer, negative ones included, parses back to that integer. |
| UrlValues.Insert | images.go:141 | Inserting a pair into a key-sorted list keeps it sorted and adds exactly that pair. |
| UrlValues.Encode | images.go:141 | The encoded form holds exactly the given pairs (as a multiset), in strictly increasing key order. |
| UrlValues.SortedIsUnique | images.go:141 | Two key-sorted lists with the same members are equal, so the encoded order is determined by the key set alone. |
| UrlValues.LexLessTransitive | images.go:141 | Byte-wise key order is transitive. |
| UrlValues.LexLessTotal | images.go:141 | Any two distinct keys are ordered one way or the other. |
| Images.ValidateCreate | images.go:35-46 | Creation options are accepted iff the prompt is non-empty, N is 0 or in 1..10, the size is one of the three listed sizes (an empty size too is refused), and the response format is empty or `url`/`b64_json`. |
| Images.CreateErrorsNameFailingFields | images.go:36-45 | The validator reports `Prompt required` iff the prompt is empty, `N min` iff N is non-zero and below 1, `N max` iff N is above 10, `Size oneof` iff the size is not listed, and `ResponseFormat oneof` iff the response format is set and not listed. |
| Images.CreateDefaults | images.go:63-68 | Only an empty size or response format is filled in, with `256x256` and `url`. Non-empty fields are kept. |
| Images.CreateJson | images.go:35-46 | `prompt` is always in the JSON object. `n`, `size` and `response_format` are present iff non-empty, and no other key appears. |
| Images.CreateJsonRoundTrip | images.go:35-46 | Reading the JSON object back gives the encoded options, so leaving out the empty fields loses nothing. |
| Images.ImageCreate | images.go:58-73 | The request is built iff validation passes. A refusal returns the validator's list and leaves the options as they were. An accepted call writes the defaults back and POSTs the JSON object to `<base>/images/generations` with `application/json`. |
| Images.CreateRequest | images.go:62-73 | An accepted creation is a POST to `<base>/images/generations` with `application/json`, the JSON object of the defaulted options, `Bearer <key>` as Authorization, and the organization header iff an id is set. No other header is set. |
| Images.CreateRequestIsWellFormed | images.go:42-45 | Every creation request that is sent names a listed size and a listed response format, and the caller's size is never changed. |
| Images.CreateSizeDefaultIsUnreachable | images.go:63-65 | `Size` has no `omitempty`, so an empty size is refused with `oneof` before the `256x256` default could apply. |
| Images.ValidateEdit | images.go:88-107 | Edit options are accepted iff the image is non-empty, the prompt is non-empty and at most 1000 characters, N is in 1..10 (0 included in the refusal), and the size and response format are empty or listed. |
| Images.EditErrorsNameFailingFields | images.go:91-106 | The validator reports `Image required` iff the image is empty, `Prompt required` iff the prompt is empty, `Prompt max` iff the prompt is longer than 1000 characters, `N min` iff N is below 1, `N max` iff N is above 10, and `Size oneof` and `ResponseFormat oneof` iff the field is set and not listed. |
| Images.EditDefaults | images.go:124-132 | Only a zero N, an empty size or an empty response format is filled in, with 1, `256x256` and `url`. Non-empty fields are kept. |
| Images.ImageEdit | images.go:119-141 | The request is built iff validation passes. A refusal keeps the options. An accepted call writes the defaults back and POSTs the encoded form to `<base>/images/edits` with the form content type. |
| Images.EditRequest | images.go:123-141 | An accepted edit is a POST to `<base>/images/edits` with the form content type, the encoded edit form, `Bearer <key>` as Authorization, and the organization header iff an id is set. No other header is set. |
| Images.EditForm | images.go:133-141 | The edit form is exactly six pairs in key order: image, mask (sent even when empty), n, prompt, response_format, size. `n` is the decimal rendering of N and parses back to it. |
| Images.EditPairsInKeyOrder | images.go:133-141 | Encoding the six-key literal yields the keys in sorted order with their values. |
| Images.AcceptedEditIsBounded | images.go:97-100 | An accepted edit has 1 ≤ N ≤ 10 and a prompt of at most 1000 characters. Its N is sent unchanged, and its size and response format are listed values. |
| Images.EditCountDefaultIsUnreachable | images.go:124-126 | N has no `omitempty`, so N = 0 is refused and the `N = 1` default never runs. |
| Images.ValidateVariation | images.go:156-169 | Variation options are accepted iff the image is non-empty, N is in 1..10, the size is listed, and the response format is empty or listed. |
| Images.VariationErrorsNameFailingFields | images.go:159-168 | The validator reports `Image required` iff the image is empty, `N min` iff N is below 1, `N max` iff N is above 10, `Size oneof` iff the size is not listed, and `ResponseFormat oneof` iff the response format is set and not listed. |
| Images.VariationDefaults | images.go:186-194 | Only a zero N, an empty size or an empty response format is filled in, with 1, `256x256` and `url`. Non-empty fields are kept. |
| Images.ImageVariation | images.go:181-201 | The request is built iff validation passes. An accepted call writes the defaults back and POSTs the form to `<base>/images/variations` with the form content type. |
| Images.VariationRequest | images.go:185-201 | An accepted variation is a POST to `<base>/images/variations` with the form content type, the encoded variation form, `Bearer <key>` as Authorization, and the organization header iff an id is set. No other header is set. |
| Images.VariationForm | images.go:195-201 | The variation form is exactly four pairs in key order: model (holding the image reference), n, response_format, size. |
| Images.VariationRequestIsWellFormed | images.go:181-194 | Options the validator accepts are sent. Every variation request that is sent names a listed size and response format. The caller's size and count are kept, and only an empty response format is filled in, with `url`. |
| Images.VariationPairsInKeyOrder | images.go:195-201 | Encoding the four-key literal yields the keys in sorted order. |
| Images.VariationDefaultsAreUnreachable | images.go:186-191 | N = 0 or an empty size is refused, and the options are left untouched. |
| Images.DefaultsAreIdempotent | images.go:63-194 | The defaults of all three image endpoints (lines 63-68, 124-132 and 186-194) are covered. Applying any endpoint's defaults twice equals applying them once, and accepted options stay accepted after defaulting. |
| Audio.ValidateAudio | audio.go:11-28 | Audio options are accepted iff the file reader is non-nil and the format and model are non-empty. Each field is reported as `required` iff it is missing, so a present field is never reported. |
| Audio.FirstFault | audio.go:137-164 | The reported step is the step of the first call that meets a fault: every earlier call succeeds, and the step is in the fault map. There is none iff no call the writer makes meets a fault. |
| Audio.WriterActions | audio.go:137-164 | `newMultiPartWriter` makes four calls unconditionally: write model, write response format, create form file, copy file. It then writes the prompt iff the prompt is non-empty, and the temperature iff it is non-zero. It never writes the language or closes the writer. |
| Audio.Run | audio.go:137-164 | Encoding fails iff some call meets a fault. The error is the first failing call's label wrapped around its I/O error. On success the parts are those the calls complete, in call order. |
| Audio.TranscribeBody | audio.go:70-85 | The transcription body fails iff some call meets a fault. The error is the first failing call's label wrapped around its I/O error. On success the parts are the shared writer's parts followed by `language` iff the language is set. |
| Audio.TranslateBody | audio.go:125-135 | The translation body fails iff some call meets a fault, with the first failing call's label. On success the parts are exactly the shared writer's parts. |
| Audio.EmittedOfConcat | audio.go:137-164 | The parts of two call sequences run one after the other are the first's parts followed by the second's. |
| Audio.FirstFaultOfConcat | audio.go:137-164 | In a sequence of calls, the first fault lies in the earlier calls when they have one, and otherwise in the later ones. |
| Audio.WriterEmits | audio.go:137-164 | The shared writer completes model, response_format `json`, the file part, then prompt if non-empty, then temperature if non-zero, and nothing else. |
| Audio.WriterLayout | audio.go:137-164 | The shared parts begin model, response_format, file. The prompt part is present iff the prompt is non-empty, and the temperature part iff the temperature is non-zero. Nothing but those two follows the file. |
| Audio.TranscribeLayout | audio.go:70-85 | A transcription body is the shared parts followed by `language` iff the language is non-empty. |
| Audio.TranslateLayout | audio.go:125-135 | A translation body is exactly the shared parts. |
| Audio.OneFilePart | audio.go:146-152 | Exactly one part is a file. It is the third part, named `file`, and holds the reader's bytes. |
| Audio.SameFaultsOnActions | audio.go:137-164 | Faults only matter on calls that are made. |
| Audio.FaultLabelsFirstFailingCall | audio.go:139-141 | A failing model write aborts with `write model`, whatever else would fail later. |
| Audio.SkippedCallCannotFail | audio.go:153-157 | With an empty prompt, a fault on the prompt write cannot change the outcome. |
| Audio.Transcribe | audio.go:44-58 | Invalid options fail validation before any body is built. Otherwise the request exists iff encoding succeeds, and an encoding failure is returned as it is. The request POSTs the transcription parts to `<base>/audio/transcriptions`, with the multipart content type passed through verbatim. It carries `Authorization: Bearer <key>`, and the organization header iff an id is set. No other header is set. |
| Audio.Translate | audio.go:98-112 | The same, for `<base>/audio/translations` and the translation parts. It carries `Authorization: Bearer <key>`, and the organization header iff an id is set. No other header is set. |
| Completions.ValidateCompletion | completions.go:11-28 | Options are accepted iff the model is non-empty, the prompt slice is non-nil, and MaxTokens is at most 4096 (zero and negative values pass). Each failing field is reported with its tag. |
| Completions.CompletionDefaults | completions.go:57-59 | A zero MaxTokens becomes 1024. A non-zero one and every other field are kept. |
| Completions.CompletionJson | completions.go:11-28 | `model` and `prompt` are always in the JSON object. `max_tokens`, `temperature` and `n` are present iff non-zero, `stop` iff non-empty, and nothing else. |
| Completions.CompletionJsonRoundTrip | completions.go:11-28 | Reading the JSON object back gives the encoded options. |
| Completions.Completion | completions.go:52-64 | The request is built iff validation passes. A refusal keeps the options. An accepted call writes the default back and POSTs the JSON object to `<base>/completions` with `application/json`. |
| Completions.CompletionRequest | completions.go:56-64 | An accepted completion is a POST to `<base>/completions` with `application/json`, the JSON object of the defaulted options, `Bearer <key>` as Authorization, and the organization header iff an id is set. No other header is set. |
| Completions.SentBudgetIsBounded | completions.go:53-59 | Validation precedes the default, so every request sent carries a non-zero `max_tokens` of at most 4096: the caller's value, or 1024 when none was set. |
| Completions.NegativeBudgetIsSent | completions.go:19 | A negative MaxTokens passes validation and is sent as it is. |
| Completions.CompletionDefaultsIdempotent | completions.go:57-59 | Applying the default twice equals applying it once. |
| Completions.RefusedOptionsAreNeverSent | completions.go:53-55 | Refused options never reach `doReq`. The counter is unchanged, and the validator's list is the error. |
| Completions.DavinciScenario | completions.go:52-64 | A davinci completion with no budget on a fresh engine goes to `https://api.openai.com/v1/completions` with exactly model, prompt and `max_tokens` 1024, and 1024 is written back. |
| Models.ListModels | models.go:42-44 | Listing is a GET to `<base>/models` with an empty body and Content-Type set to the empty post type. It carries `Authorization: Bearer <key>`, and the organization header iff an id is set. No other header is set. |
| Models.ValidateRetrieve | models.go:59-62 | A retrieval is accepted iff the id is non-empty. Otherwise the single error is `ID` `required`. |
| Models.RetrieveModel | models.go:74-79 | An empty id fails and builds no request. Otherwise the request is a GET to `<base>/models/<id>`, with the id appended unescaped, an empty body and an empty Content-Type. It carries `Authorization: Bearer <key>`, and the organization header iff an id is set. No other header is set. |
| Models.RetrieveUrlDeterminesId | models.go:78 | Two retrievals share a URL iff their ids are equal. |
| Models.RetrieveExtendsListing | models.go:42-78 | A retrieval request is the listing request with `/<id>` appended to its URL. |
| Models.EmptyIdIsNeverSent | models.go:75-77 | A retrieval with an empty id never reaches `doReq`, and the counter is unchanged. |
| Moderation.ModerationJson | moderation.go:54-56 | The body's only key is `input`, holding the argument. |
| Moderation.ModerationJsonRoundTrip | moderation.go:54-56 | The input reads back from the body. |
| Moderation.Moderate | moderation.go:52-62 | There is no validation, so any input yields a request: a POST to `<base>/moderations` with `application/json` and a body whose only key is `input`. It carries `Authorization: Bearer <key>`, and the organization header iff an id is set. No other header is set. |
| Moderation.EveryInputIsSent | moderation.go:52-62 | Every input, the empty string included, is dispatched and counted, and carries exactly that input. |

## Left out

- HTTP dispatch is not modelled: `client.Do`, contexts, deadlines and body closing are left out. What the transport returned is an input (`Client.Exchange`).
- Decoding a successful reply into the response structs is left out. `Client.Call` returns the raw reply.
- The request counter's thread safety is left out, as is the wrap-around of Go's `int`. The counter is a `nat`.
- `http.NewRequestWithContext` can fail to parse the URL. `Client.NewReq` is total and does not model that error.
- JSON bodies are field maps. Byte-level output, escaping and the encoder's trailing newline are not modelled.
- The `marshalJson` and `json.Encoder` error paths are unreachable for these flat structs, so they are left out (for example moderation.go:57-59).
- The percent-escaping that `url.Values.Encode` applies to keys and values is left out. Only the key order is modelled.
- The multipart boundary is random in the source. Here it is an input, and its quoting rules are left out. Only the ordered part list is modelled, not the bytes.
- Temperature is kept as the bits of a `float32`. Its `%f` rendering is left out; only whether the temperature is zero (positive or negative zero) matters.
- I/O failures inside the multipart writer are an input: a map from each writer call to the error it meets.
- Each endpoint that takes options takes a pointer to them. `validate.StructCtx` returns an `InvalidValidationError` when that pointer is nil. This covers `ImageCreate`, `ImageEdit`, `ImageVariation`, `Completion`, `RetrieveModel`, `Transcribe` and `Translate`. The model takes options by value, so it has no nil options and no such error.
- In the source, `TranscribeOptions` and `TranslateOptions` embed `*AudioOptions`. When the embedded value is nil, the validator skips it and the body writer then dereferences nil. The model always carries the audio options.
- Strings are modelled as valid Unicode text: a Dafny `string` is a sequence of characters, while a Go `string` is a byte string. Invalid UTF-8 is outside the model. On such input the `max` tag counts each invalid byte as one rune, and `json.Marshal` replaces invalid bytes with U+FFFD, so `Images.CreateJsonRoundTrip` and `Completions.CompletionJsonRoundTrip` do not cover it.
- `AudioOptions.file` holds the bytes the reader has left, and the file part carries them. `io.Copy` (audio.go:150) drains the caller's reader, so sending the same options twice sends an empty file the second time. Consuming the reader is not modelled.
- Response struct shapes are left out. They are decode-only and carry no logic.
- edits.go is not part of this model. Its `newReq` call does not match the function's signature.
- error.go's `Error()` is not part of this model. It only formats the error.
- Of the `Model` constants in models.go, only `ModelDavinci` is declared, because it is the only one the completion scenario uses. The others are plain strings with no logic attached.

=== FILE: audio.dfy ===
/** audio.go: transcription and translation. Both validate the shared audio
    options, write a multipart form whose part order is fixed by the code,
    and post it with the writer's content type. A failing write aborts the
    encoding with an error labelled by the step that failed. */
module Audio {
  import opened Wrappers
  import opened Http
  import opened Binding
  import Client

  datatype AudioOptions = AudioOptions(
    file: Option<seq<Byte>>,   // the reader; `None` is a nil reader
    audioFormat: string,
    model: string,
    prompt: string,
    temperature: Float32)

  datatype TranscribeOptions = TranscribeOptions(audio: AudioOptions, language: string)

  datatype TranslateOptions = TranslateOptions(audio: AudioOptions)

  /** The steps of the multipart writer that can fail. */
  datatype Step =
    | WriteModel | WriteResponseFormat | CreateFormFile | CopyFile
    | WritePrompt | WriteTemperature | WriteLanguage | CloseWriter

  /** The prefix each step's error is wrapped with. */
  function Label(s: Step): string {
    match s
    case WriteModel => "write model"
    case WriteResponseFormat => "write response format"
    case CreateFormFile => "create form file"
    case CopyFile => "copy file"
    case WritePrompt => "write prompt"
    case WriteTemperature => "write temperature"
    case WriteLanguage => "write language"
    case CloseWriter => "close writer"
  }

  /** The I/O error each failing step meets; a step not in the map succeeds. */
  type Faults = map<Step, string>

  const MultipartPrefix := "multipart/form-data; boundary="

  /** `FormDataContentType` of a writer with the given boundary. */
  function FormDataContentType(boundary: string): string {
    MultipartPrefix + boundary
  }

  // ------------------------------------------------------------ validation

  predicate AudioAccepted(a: AudioOptions) {
    a.file.Some? && a.audioFormat != "" && a.model != ""
  }

  /** `File`, `AudioFormat` and `Model` are `required`; `Prompt`,
      `Temperature` and `Language` carry no tags. */
  function ValidateAudio(a: AudioOptions): (errs: seq<FieldError>)
    ensures errs == [] <==> AudioAccepted(a)
    ensures FieldError("File", "required") in errs <==> a.file.None?
    ensures FieldError("AudioFormat", "required") in errs <==> a.audioFormat == ""
    ensures FieldError("Model", "required") in errs <==> a.model == ""
    ensures |errs| <= 3
  {
    Required("File", a.file.Some?) + Required("AudioFormat", a.audioFormat != "") + Required("Model", a.model != "")
  }

  // --------------------------------------------------------------- writing

  /** One call on the multipart writer: the step it is labelled with, and
      the part it completes (creating the file part completes nothing until
      the copy into it finishes; closing writes only the trailer). */
  datatype Action = Action(step: Step, emits: Option<Part>)

  /** The calls `newMultiPartWriter` makes, in the order it makes them:
      model, response format (always the literal `json`), the file part
      named `file` with filename `file.<format>`, then the prompt when not
      empty and the temperature when not zero. */
  function WriterActions(a: AudioOptions): (r: seq<Action>)
    requires a.file.Some?
    ensures |r| == 4 + (if a.prompt != "" then 1 else 0) + (if !a.temperature.IsZero() then 1 else 0)
    ensures r[0].step == WriteModel && r[1].step == WriteResponseFormat
    ensures r[2].step == CreateFormFile && r[3].step == CopyFile
    ensures a.prompt != "" ==> r[4].step == WritePrompt
    ensures !a.temperature.IsZero() ==> r[|r| - 1].step == WriteTemperature
    ensures forall i :: 0 <= i < |r| ==> r[i].step !in {WriteLanguage, CloseWriter}
  {
    FixedActions(a)
    + (if a.prompt != "" then [Action(WritePrompt, Some(FormField("prompt", Text(a.prompt))))] else [])
    + (if !a.temperature.IsZero() then [Action(WriteTemperature, Some(FormField("temperature", Decimal(a.temperature))))] else [])
  }

  /** `newTranscribeBody`'s calls: the shared ones, the language when not
      empty, then closing the writer. */
  function TranscribeActions(o: TranscribeOptions): seq<Action>
    requires o.audio.file.Some?
  {
    WriterActions(o.audio)
    + (if o.language != "" then [Action(WriteLanguage, Some(FormField("language", Text(o.language))))] else [])
    + [Action(CloseWriter, None)]
  }

  /** `newTranslateBody`'s calls: the shared ones, then closing the writer. */
  function TranslateActions(o: TranslateOptions): seq<Action>
    requires o.audio.file.Some?
  {
    WriterActions(o.audio) + [Action(CloseWriter, None)]
  }

  /** The step of the first call that meets a fault, if any. */
  function FirstFault(actions: seq<Action>, faults: Faults): (r: Option<Step>)
    ensures r.Some? ==> r.value in faults
    ensures r.Some? ==> exists i :: 0 <= i < |actions| && actions[i].step == r.value
                                   && forall j :: 0 <= j < i ==> actions[j].step !in faults
    ensures r.None? <==> forall i :: 0 <= i < |actions| ==> actions[i].step !in faults
  {
    if |actions| == 0 then None
    else if actions[0].step in faults then Some(actions[0].step)
    else FirstFault(actions[1..], faults)
  }

  /** The parts a run of calls completes when none of them fails. */
  function Emitted(actions: seq<Action>): seq<Part> {
    if |actions| == 0 then []
    else (if actions[0].emits.Some? then [actions[0].emits.value] else []) + Emitted(actions[1..])
  }

  /** Performs the calls in order. The first failing call aborts the whole
      encoding with its label wrapped around the I/O error; no part written
      so far is returned. */
  function Run(actions: seq<Action>, faults: Faults): (r: Result<seq<Part>, Client.Error>)
    ensures r.Failure? <==> FirstFault(actions, faults).Some?
    ensures r.Failure? ==>
      var s := FirstFault(actions, faults).value;
      r.error == Client.Encoding(Label(s), faults[s])
    ensures r.Success? ==> r.value == Emitted(actions)
  {
    if |actions| == 0 then Success([])
    else if actions[0].step in faults then Failure(Client.Encoding(Label(actions[0].step), faults[actions[0].step]))
    else
      var rest :- Run(actions[1..], faults);
      Success((if actions[0].emits.Some? then [actions[0].emits.value] else []) + rest)
  }

  lemma {:induction false} EmittedOfConcat(a: seq<Action>, b: seq<Action>)
    ensures Emitted(a + b) == Emitted(a) + Emitted(b)
    decreases |a|
  {
    if |a| == 0 {
      assert a + b == b;
    } else {
      assert (a + b)[0] == a[0];
      assert (a + b)[1..] == a[1..] + b;
      var head := if a[0].emits.Some? then [a[0].emits.value] else [];
      assert Emitted(a + b) == head + Emitted(a[1..] + b);
      EmittedOfConcat(a[1..], b);
      assert Emitted(a) == head + Emitted(a[1..]);
    }
  }

  lemma {:induction false} FirstFaultOfConcat(a: seq<Action>, b: seq<Action>, faults: Faults)
    ensures FirstFault(a + b, faults) == if FirstFault(a, faults).Some? then FirstFault(a, faults) else FirstFault(b, faults)
    decreases |a|
  {
    if |a| == 0 {
      assert a + b == b;
    } else {
      assert (a + b)[0] == a[0];
      assert (a + b)[1..] == a[1..] + b;
      FirstFaultOfConcat(a[1..], b, faults);
    }
  }

  /** `newTranscribeBody`: the labelled calls, run in order. */
  function TranscribeBody(o: TranscribeOptions, faults: Faults): (r: Result<seq<Part>, Client.Error>)
    requires o.audio.file.Some?
    ensures r.Failure? <==> FirstFault(TranscribeActions(o), faults).Some?
    ensures r.Failure? ==>
      var s := FirstFault(TranscribeActions(o), faults).value;
      r.error == Client.Encoding(Label(s), faults[s])
    ensures r.Success? ==>
      r.value == Emitted(WriterActions(o.audio)) + (if o.language != "" then [FormField("language", Text(o.language))] else [])
  {
    TranscribeLayout(o);
    Run(TranscribeActions(o), faults)
  }

  /** `newTranslateBody`: the labelled calls, run in order. */
  function TranslateBody(o: TranslateOptions, faults: Faults): (r: Result<seq<Part>, Client.Error>)
    requires o.audio.file.Some?
    ensures r.Failure? <==> FirstFault(TranslateActions(o), faults).Some?
    ensures r.Failure? ==>
      var s := FirstFault(TranslateActions(o), faults).value;
      r.error == Client.Encoding(Label(s), faults[s])
    ensures r.Success? ==> r.value == Emitted(WriterActions(o.audio))
  {
    TranslateLayout(o);
    Run(TranslateActions(o), faults)
  }

  // ------------------------------------------------------------ the layout

  /** The four unconditional calls complete three parts. */
  function FixedActions(a: AudioOptions): seq<Action>
    requires a.file.Some?
  {
    [Action(WriteModel, Some(FormField("model", Text(a.model)))),
     Action(WriteResponseFormat, Some(FormField("response_format", Text("json")))),
     Action(CreateFormFile, None),
     Action(CopyFile, Some(FormFile("file", "file." + a.audioFormat, a.file.value)))]
  }

  lemma FixedEmitted(a: AudioOptions)
    requires a.file.Some?
    ensures Emitted(FixedActions(a)) ==
      [FormField("model", Text(a.model)), FormField("response_format", Text("json")),
       FormFile("file", "file." + a.audioFormat, a.file.value)]
  {
    var fixed := FixedActions(a);
    assert Emitted(fixed[3..]) == [FormFile("file", "file." + a.audioFormat, a.file.value)];
    assert Emitted(fixed[2..]) == Emitted(fixed[3..]);
    assert Emitted(fixed[1..]) == [FormField("response_format", Text("json"))] + Emitted(fixed[2..]);
  }

  /** The parts the shared writer completes, in order. */
  lemma WriterLayout(a: AudioOptions)
    requires a.file.Some?
    ensures
      var parts := Emitted(WriterActions(a));
      && |parts| == 3 + (if a.prompt != "" then 1 else 0) + (if !a.temperature.IsZero() then 1 else 0)
      && parts[0] == FormField("model", Text(a.model))
      && parts[1] == FormField("response_format", Text("json"))
      && parts[2] == FormFile("file", "file." + a.audioFormat, a.file.value)
      && (a.prompt != "" ==> parts[3] == FormField("prompt", Text(a.prompt)))
      && (!a.temperature.IsZero() ==> parts[|parts| - 1] == FormField("temperature", Decimal(a.temperature)))
      && (forall i :: 3 <= i < |parts| ==> parts[i].FormField? && parts[i].name in {"prompt", "temperature"})
      && (FormField("prompt", Text(a.prompt)) in parts <==> a.prompt != "")
      && (FormField("temperature", Decimal(a.temperature)) in parts <==> !a.temperature.IsZero())
  {
    WriterEmits(a);
  }

  lemma WriterEmits(a: AudioOptions)
    requires a.file.Some?
    ensures Emitted(WriterActions(a)) ==
      [FormField("model", Text(a.model)), FormField("response_format", Text("json")),
       FormFile("file", "file." + a.audioFormat, a.file.value)]
      + (if a.prompt != "" then [FormField("prompt", Text(a.prompt))] else [])
      + (if !a.temperature.IsZero() then [FormField("temperature", Decimal(a.temperature))] else [])
  {
    var prompt := if a.prompt != "" then [Action(WritePrompt, Some(FormField("prompt", Text(a.prompt))))] else [];
    var temperature := if !a.temperature.IsZero() then [Action(WriteTemperature, Some(FormField("temperature", Decimal(a.temperature))))] else [];
    assert WriterActions(a) == FixedActions(a) + prompt + temperature;
    EmittedOfConcat(FixedActions(a) + prompt, temperature);
    EmittedOfConcat(FixedActions(a), prompt);
    FixedEmitted(a);
    assert Emitted(prompt) == if a.prompt != "" then [FormField("prompt", Text(a.prompt))] else [];
    assert Emitted(temperature) == if !a.temperature.IsZero() then [FormField("temperature", Decimal(a.temperature))] else [];
  }

  /** A transcription body is the shared parts followed by `language`
      exactly when a language is set, and nothing else. */
  lemma TranscribeLayout(o: TranscribeOptions)
    requires o.audio.file.Some?
    ensures
      var shared := Emitted(WriterActions(o.audio));
      Emitted(TranscribeActions(o)) == shared + (if o.language != "" then [FormField("language", Text(o.language))] else [])
  {
    var language := if o.language != "" then [Action(WriteLanguage, Some(FormField("language", Text(o.language))))] else [];
    var close := [Action(CloseWriter, None)];
    assert TranscribeActions(o) == WriterActions(o.audio) + language + close;
    EmittedOfConcat(WriterActions(o.audio) + language, close);
    EmittedOfConcat(WriterActions(o.audio), language);
  }

  /** A translation body is exactly the shared parts. */
  lemma TranslateLayout(o: TranslateOptions)
    requires o.audio.file.Some?
    ensures Emitted(TranslateActions(o)) == Emitted(WriterActions(o.audio))
  {
    EmittedOfConcat(WriterActions(o.audio), [Action(CloseWriter, None)]);
  }

  /** Exactly one part is a file, and it holds the reader's bytes. */
  lemma OneFilePart(o: TranscribeOptions)
    requires o.audio.file.Some?
    ensures
      var parts := Emitted(TranscribeActions(o));
      && |parts| >= 3
      && (forall i :: 0 <= i < |parts| ==> (parts[i].FormFile? <==> i == 2))
      && parts[2].name == "file" && parts[2].content == o.audio.file.value
  {
    WriterLayout(o.audio);
    TranscribeLayout(o);
  }

  /** Faults on calls the options do not make leave the outcome unchanged. */
  lemma {:induction false} SameFaultsOnActions(actions: seq<Action>, f: Faults, g: Faults)
    requires forall i :: 0 <= i < |actions| ==> (actions[i].step in f <==> actions[i].step in g)
    requires forall i :: 0 <= i < |actions| && actions[i].step in f ==> f[actions[i].step] == g[actions[i].step]
    ensures Run(actions, f) == Run(actions, g)
    decreases |actions|
  {
    if |actions| > 0 {
      SameFaultsOnActions(actions[1..], f, g);
    }
  }

  /** A fault on the first call is reported under its label, whatever else fails. */
  lemma FaultLabelsFirstFailingCall(o: TranscribeOptions, faults: Faults)
    requires o.audio.file.Some?
    requires WriteModel in faults
    ensures TranscribeBody(o, faults) == Failure(Client.Encoding("write model", faults[WriteModel]))
  {
  }

  /** With an empty prompt no prompt is written, so a fault on that write
      cannot surface. */
  lemma SkippedCallCannotFail(o: TranscribeOptions, faults: Faults)
    requires o.audio.file.Some? && o.audio.prompt == ""
    ensures TranscribeBody(o, faults) == TranscribeBody(o, faults - {WritePrompt})
  {
    var actions := TranscribeActions(o);
    forall i | 0 <= i < |actions| ensures actions[i].step != WritePrompt {
    }
    SameFaultsOnActions(actions, faults, faults - {WritePrompt});
  }

  // ------------------------------------------------------------- endpoints

  /** `Transcribe`: validate, encode, then POST to `/audio/transcriptions`
      with the multipart content type passed through `newReq` verbatim. */
  function Transcribe(e: Client.Engine, o: TranscribeOptions, faults: Faults, boundary: string): (r: Result<Request, Client.Error>)
    ensures !AudioAccepted(o.audio) ==> r == Failure(Client.Invalid(ValidateAudio(o.audio)))
    ensures AudioAccepted(o.audio) ==> (r.Success? <==> TranscribeBody(o, faults).Success?)
    ensures AudioAccepted(o.audio) && r.Failure? ==> r.error == TranscribeBody(o, faults).error
    ensures r.Success? ==>
      && r.value.verb == Post
      && r.value.url == e.apiBaseUrl + "/audio/transcriptions"
      && ContentTypeHeader in r.value.headers
      && r.value.headers[ContentTypeHeader] == FormDataContentType(boundary)
      && r.value.body == Multipart(Emitted(TranscribeActions(o)))
      && Client.Credentialed(e, r.value.headers)
  {
    var errs := ValidateAudio(o.audio);
    if errs != [] then Failure(Client.Invalid(errs))
    else
      var url := e.apiBaseUrl + "/audio/transcriptions";
      var parts :- TranscribeBody(o, faults);
      Success(Client.NewReq(e, Post, url, FormDataContentType(boundary), Some(Multipart(parts))))
  }

  /** `Translate`: validate, encode, then POST to `/audio/translations`. */
  function Translate(e: Client.Engine, o: TranslateOptions, faults: Faults, boundary: string): (r: Result<Request, Client.Error>)
    ensures !AudioAccepted(o.audio) ==> r == Failure(Client.Invalid(ValidateAudio(o.audio)))
    ensures AudioAccepted(o.audio) ==> (r.Success? <==> TranslateBody(o, faults).Success?)
    ensures AudioAccepted(o.audio) && r.Failure? ==> r.error == TranslateBody(o, faults).error
    ensures r.Success? ==>
      && r.value.verb == Post
      && r.value.url == e.apiBaseUrl + "/audio/translations"
      && ContentTypeHeader in r.value.headers
      && r.value.headers[ContentTypeHeader] == FormDataContentType(boundary)
      && r.value.body == Multipart(Emitted(TranslateActions(o)))
      && Client.Credentialed(e, r.value.headers)
  {
    var errs := ValidateAudio(o.audio);
    if errs != [] then Failure(Client.Invalid(errs))
    else
      var url := e.apiBaseUrl + "/audio/translations";
      var parts :- TranslateBody(o, faults);
      Success(Client.NewReq(e, Post, url, FormDataContentType(boundary), Some(Multipart(parts))))
  }
}

=== FILE: binding.dfy ===
/** The `binding:"..."` struct tags, written out as checks. Each check
    yields the validator's error entry for one field (at most one: the first
    tag of the field that fails), so a struct's result is the concatenation
    of its fields' checks in declaration order, and the empty list means
    the value was accepted. */
module Binding {

  datatype FieldError = FieldError(field: string, tag: string)

  /** Every entry of `errs` is about `field`, and there is at most one. */
  predicate About(errs: seq<FieldError>, field: string) {
    |errs| <= 1 && forall x :: x in errs ==> x.field == field
  }

  /** `required`: the field is not its zero value (a non-nil slice or reader,
      a non-empty string). */
  function Required(field: string, present: bool): (r: seq<FieldError>)
    ensures About(r, field)
    ensures FieldError(field, "required") in r <==> !present
  {
    if present then [] else [FieldError(field, "required")]
  }

  /** `min=lo,max=hi` on an integer. */
  function Range(field: string, v: int, lo: int, hi: int): (r: seq<FieldError>)
    ensures About(r, field)
    ensures FieldError(field, "min") in r <==> v < lo
    ensures FieldError(field, "max") in r <==> lo <= v && v > hi
  {
    if v < lo then [FieldError(field, "min")]
    else if v > hi then [FieldError(field, "max")]
    else []
  }

  /** `max=hi` on an integer. */
  function AtMost(field: string, v: int, hi: int): (r: seq<FieldError>)
    ensures About(r, field)
    ensures FieldError(field, "max") in r <==> v > hi
  {
    if v > hi then [FieldError(field, "max")] else []
  }

  /** `max=n` on a string counts characters (runes), not bytes. */
  function MaxLength(field: string, s: string, n: nat): (r: seq<FieldError>)
    ensures About(r, field)
    ensures FieldError(field, "max") in r <==> |s| > n
  {
    if |s| > n then [FieldError(field, "max")] else []
  }

  /** `oneof=...`: the value is one of the listed words. */
  function OneOf(field: string, v: string, words: seq<string>): (r: seq<FieldError>)
    ensures About(r, field)
    ensures FieldError(field, "oneof") in r <==> v !in words
  {
    if v in words then [] else [FieldError(field, "oneof")]
  }

  /** `omitempty`: the remaining tags are skipped when the field is empty. */
  function OmitEmpty(empty: bool, checks: seq<FieldError>): (r: seq<FieldError>)
    ensures empty ==> r == []
    ensures !empty ==> r == checks
  {
    if empty then [] else checks
  }
}

=== FILE: client.dfy ===
/** The engine of openai.go: its configuration, the request builder shared
    by every endpoint, and the classifier of HTTP replies. */
module Client {
  import opened Wrappers
  import opened Http
  import Binding

  const DefaultBaseUrl := "https://api.openai.com/v1"
  const DefaultMaxTokens := 1024

  /** The engine's configuration and its request counter. The HTTP client
      and the validator it also holds are stateless here and left out. */
  datatype Engine = Engine(apiKey: string, apiBaseUrl: string, organizationId: string, requests: nat)

  /** The `error` object of the API's error envelope. */
  datatype ApiError = ApiError(statusCode: int, message: string, kind: string)

  /** Every way an endpoint call can fail. */
  datatype Error =
    | Invalid(fields: seq<Binding.FieldError>)   // the validator refused the options
    | Encoding(step: string, cause: string)      // a labelled multipart write failed
    | Transport(cause: string)                   // `client.Do` failed
    | Decode(cause: string)                      // an error body was not valid JSON
    | Api(apiError: ApiError)                    // a non-2xx reply

  /** The options value after the endpoint ran (defaults are written back
      into the caller's struct) together with the request it built. */
  datatype Prepared<O> = Prepared(opts: O, request: Result<Request, Error>)

  /** A reply as `client.Do` delivers it: the status code, and what
      decoding its body into an `APIError` yields. */
  datatype Reply = Reply(status: int, errorBody: Result<ApiError, string>)

  /** What the transport did with a request: it failed, or a reply came back. */
  datatype Exchange = Unreachable(cause: string) | Replied(reply: Reply)

  /** The classification `doReq` makes of an exchange. */
  datatype Outcome =
    | Delivered(reply: Reply)
    | Rejected(reply: Reply, apiError: ApiError)
    | TransportFailed(cause: string)
    | DecodeFailed(cause: string)

  predicate IsSuccessStatus(status: int) {
    200 <= status < 300
  }

  function New(apiKey: string): (e: Engine)
    ensures e.apiKey == apiKey && e.apiBaseUrl == DefaultBaseUrl
    ensures e.organizationId == "" && e.requests == 0
  {
    Engine(apiKey, DefaultBaseUrl, "", 0)
  }

  function SetApiKey(e: Engine, apiKey: string): (r: Engine)
    ensures r.apiKey == apiKey
    ensures r.apiBaseUrl == e.apiBaseUrl && r.organizationId == e.organizationId && r.requests == e.requests
  {
    e.(apiKey := apiKey)
  }

  function SetOrganizationId(e: Engine, organizationId: string): (r: Engine)
    ensures r.organizationId == organizationId
    ensures r.apiKey == e.apiKey && r.apiBaseUrl == e.apiBaseUrl && r.requests == e.requests
  {
    e.(organizationId := organizationId)
  }

  /** The Content-Type a post type selects. */
  function ContentTypeFor(postType: string): string {
    if postType == "json" then JsonContentType
    else if postType == "formData" then FormContentType
    else postType
  }

  /** The headers every request of the engine carries: `Bearer <key>` as
      Authorization, the organization id exactly when one is set, and a
      Content-Type; no other header is set. */
  predicate Credentialed(e: Engine, headers: map<string, string>) {
    && headers.Keys == {AuthorizationHeader, ContentTypeHeader} + (if e.organizationId == "" then {} else {OrganizationHeader})
    && AuthorizationHeader in headers
    && headers[AuthorizationHeader] == "Bearer " + e.apiKey
    && (OrganizationHeader in headers <==> e.organizationId != "")
    && (OrganizationHeader in headers ==> headers[OrganizationHeader] == e.organizationId)
  }

  /** `newReq`. A nil body is replaced by an empty reader first, so the
      body is never nil when the Content-Type switch runs. */
  function NewReq(e: Engine, verb: Method, uri: string, postType: string, body: Option<Body>): (r: Request)
    ensures r.verb == verb && r.url == uri
    ensures body.None? ==> r.body == Empty
    ensures body.Some? ==> r.body == body.value
    ensures r.headers.Keys == {AuthorizationHeader, ContentTypeHeader} + (if e.organizationId == "" then {} else {OrganizationHeader})
    ensures r.headers[AuthorizationHeader] == "Bearer " + e.apiKey
    ensures OrganizationHeader in r.headers <==> |e.organizationId| != 0
    ensures OrganizationHeader in r.headers ==> r.headers[OrganizationHeader] == e.organizationId
    ensures postType == "json" ==> r.headers[ContentTypeHeader] == JsonContentType
    ensures postType == "formData" ==> r.headers[ContentTypeHeader] == FormContentType
    ensures postType != "json" && postType != "formData" ==> r.headers[ContentTypeHeader] == postType
    ensures Credentialed(e, r.headers)
  {
    var b := if body.None? then Empty else body.value;
    var auth := map[AuthorizationHeader := "Bearer " + e.apiKey];
    var org := if |e.organizationId| != 0 then auth[OrganizationHeader := e.organizationId] else auth;
    Request(verb, uri, org[ContentTypeHeader := ContentTypeFor(postType)], b)
  }

  /** `doReq`: count the request, then classify what the transport did with it. */
  function DoReq(e: Engine, x: Exchange): (r: (Engine, Outcome))
    ensures r.0.requests == e.requests + 1
    ensures r.0.apiKey == e.apiKey && r.0.apiBaseUrl == e.apiBaseUrl && r.0.organizationId == e.organizationId
    ensures x.Unreachable? ==> r.1 == TransportFailed(x.cause)
    ensures x.Replied? && IsSuccessStatus(x.reply.status) ==> r.1 == Delivered(x.reply)
    ensures r.1.Rejected? <==> x.Replied? && !IsSuccessStatus(x.reply.status) && x.reply.errorBody.Success?
    ensures r.1.DecodeFailed? <==> x.Replied? && !IsSuccessStatus(x.reply.status) && x.reply.errorBody.Failure?
    ensures r.1.DecodeFailed? ==> r.1.cause == x.reply.errorBody.error
    ensures r.1.Rejected? ==> r.1.reply == x.reply
    ensures r.1.Rejected? ==> r.1.apiError.message == x.reply.errorBody.value.message
    ensures r.1.Rejected? ==> r.1.apiError.kind == x.reply.errorBody.value.kind
    ensures r.1.Rejected? && x.reply.errorBody.value.statusCode == 0 ==> r.1.apiError.statusCode == x.reply.status
    ensures r.1.Rejected? && x.reply.errorBody.value.statusCode != 0 ==> r.1.apiError.statusCode == x.reply.errorBody.value.statusCode
  {
    var counted := e.(requests := e.requests + 1);
    match x
    case Unreachable(cause) => (counted, TransportFailed(cause))
    case Replied(reply) =>
      if IsSuccessStatus(reply.status) then (counted, Delivered(reply))
      else match reply.errorBody
        case Failure(cause) => (counted, DecodeFailed(cause))
        case Success(apiErr) =>
          var backfilled := if apiErr.statusCode == 0 then apiErr.(statusCode := reply.status) else apiErr;
          (counted, Rejected(reply, backfilled))
  }

  /** One endpoint call after its request was prepared: a preparation error
      is returned before `doReq`, otherwise the exchange is classified and
      every failing classification becomes the call's error. */
  function Call(e: Engine, request: Result<Request, Error>, x: Exchange): (r: (Engine, Result<Reply, Error>))
    ensures request.Failure? ==> r.0 == e && r.1 == Failure(request.error)
    ensures request.Success? ==> r.0.requests == e.requests + 1
    ensures request.Success? && x.Unreachable? ==> r.1 == Failure(Transport(x.cause))
    ensures request.Success? && x.Replied? && IsSuccessStatus(x.reply.status) ==> r.1 == Success(x.reply)
    ensures r.1.Success? ==> request.Success? && x.Replied? && IsSuccessStatus(x.reply.status)
    ensures request.Success? ==> r.0 == e.(requests := e.requests + 1)
    ensures request.Success? && x.Replied? && !IsSuccessStatus(x.reply.status) && x.reply.errorBody.Failure? ==>
      r.1 == Failure(Decode(x.reply.errorBody.error))
    ensures request.Success? && x.Replied? && !IsSuccessStatus(x.reply.status) && x.reply.errorBody.Success? ==>
      var body := x.reply.errorBody.value;
      r.1 == Failure(Api(body.(statusCode := if body.statusCode == 0 then x.reply.status else body.statusCode)))
  {
    if request.Failure? then (e, Failure(request.error))
    else
      var (counted, outcome) := DoReq(e, x);
      match outcome
      case Delivered(reply) => (counted, Success(reply))
      case Rejected(_, apiErr) => (counted, Failure(Api(apiErr)))
      case TransportFailed(cause) => (counted, Failure(Transport(cause)))
      case DecodeFailed(cause) => (counted, Failure(Decode(cause)))
  }

  /** A transport failure is returned as it came and is never read as an API error. */
  lemma TransportErrorPassesThrough(e: Engine, request: Request, cause: string)
    ensures Call(e, Success(request), Unreachable(cause)).1 == Failure(Transport(cause))
    ensures !DoReq(e, Unreachable(cause)).1.Rejected?
  {
  }

  /** Whatever the outcome, a dispatched call counts exactly one request, and
      a call whose preparation failed counts none. */
  lemma CallCountsOnlyDispatched(e: Engine, request: Result<Request, Error>, x: Exchange)
    ensures Call(e, request, x).0.requests == e.requests + (if request.Success? then 1 else 0)
  {
  }

  /** Replacing the API key changes the Authorization header and nothing else
      about the requests the engine builds. */
  lemma SetApiKeyChangesOnlyAuthorization(e: Engine, apiKey: string, verb: Method, uri: string, postType: string, body: Option<Body>)
    ensures
      var before := NewReq(e, verb, uri, postType, body);
      var after := NewReq(SetApiKey(e, apiKey), verb, uri, postType, body);
      && after.headers[AuthorizationHeader] == "Bearer " + apiKey
      && after.headers == before.headers[AuthorizationHeader := "Bearer " + apiKey]
      && after.verb == before.verb && after.url == before.url && after.body == before.body
  {
  }

  /** A fresh engine sends no organization header until one is set, and then
      sends exactly the id that was set. */
  lemma OrganizationHeaderFollowsSetter(apiKey: string, organizationId: string, verb: Method, uri: string, postType: string, body: Option<Body>)
    ensures OrganizationHeader !in NewReq(New(apiKey), verb, uri, postType, body).headers
    ensures
      var r := NewReq(SetOrganizationId(New(apiKey), organizationId), verb, uri, postType, body);
      && (OrganizationHeader in r.headers <==> organizationId != "")
      && (organizationId != "" ==> r.headers[OrganizationHeader] == organizationId)
  {
  }

  /** The error-handling scenario: a 401 whose body carries no status code
      yields an API error with the code backfilled from the reply. */
  lemma UnauthorizedScenario(e: Engine)
    ensures
      var reply := Reply(401, Success(ApiError(0, "invalid key", "auth_error")));
      DoReq(e, Replied(reply)).1 == Rejected(reply, ApiError(401, "invalid key", "auth_error"))
  {
  }
}

=== FILE: completions.dfy ===
/** completions.go: the text-completion endpoint. The options are validated,
    an unset token budget is filled in and written back, and the options are
    sent as a JSON object. */
module Completions {
  import opened Wrappers
  import opened Http
  import opened Binding
  import Client
  import Models

  /** The largest token budget the options may ask for. */
  const MaxTokensLimit := 4096

  /** `CompletionOptions`. `prompt` is a Go slice: `None` is nil, which is
      what `required` refuses; an empty non-nil slice is accepted. */
  datatype CompletionOptions = CompletionOptions(
    model: string,
    prompt: Option<seq<string>>,
    maxTokens: int,
    temperature: int,
    n: int,
    stop: seq<string>)

  /** The binding tags of `CompletionOptions`, as one predicate. */
  predicate CompletionAccepted(o: CompletionOptions) {
    && o.model != ""
    && o.prompt.Some?
    && o.maxTokens <= MaxTokensLimit
  }

  /** The validator's verdict: one entry per failing field, in field order. */
  function ValidateCompletion(o: CompletionOptions): (errs: seq<FieldError>)
    ensures errs == [] <==> CompletionAccepted(o)
    ensures o.model == "" <==> FieldError("Model", "required") in errs
    ensures o.prompt.None? <==> FieldError("Prompt", "required") in errs
    ensures o.maxTokens > MaxTokensLimit <==> FieldError("MaxTokens", "max") in errs
    ensures |errs| <= 3
  {
    Required("Model", o.model != "")
    + Required("Prompt", o.prompt.Some?)
    + OmitEmpty(o.maxTokens == 0, AtMost("MaxTokens", o.maxTokens, MaxTokensLimit))
  }

  /** The default `Completion` writes back: only a zero budget changes. */
  function CompletionDefaults(o: CompletionOptions): (r: CompletionOptions)
    ensures r.maxTokens != 0
    ensures o.maxTokens != 0 ==> r.maxTokens == o.maxTokens
    ensures o.maxTokens == 0 ==> r.maxTokens == Client.DefaultMaxTokens
    ensures r.model == o.model && r.prompt == o.prompt && r.temperature == o.temperature
    ensures r.n == o.n && r.stop == o.stop
  {
    if o.maxTokens == 0 then o.(maxTokens := Client.DefaultMaxTokens) else o
  }

  /** The JSON object `json.Marshal` makes of the options: `model` and
      `prompt` always (a nil prompt as `null`), the integers only when not
      zero and `stop` only when not empty. */
  function CompletionJson(o: CompletionOptions): (fields: map<string, JsonValue>)
    ensures "model" in fields && fields["model"] == JString(o.model)
    ensures "prompt" in fields
    ensures o.prompt.Some? ==> fields["prompt"] == JStrings(o.prompt.value)
    ensures "max_tokens" in fields <==> o.maxTokens != 0
    ensures "temperature" in fields <==> o.temperature != 0
    ensures "n" in fields <==> o.n != 0
    ensures "stop" in fields <==> o.stop != []
    ensures fields.Keys <= {"model", "prompt", "max_tokens", "temperature", "n", "stop"}
  {
    var base := map["model" := JString(o.model),
                    "prompt" := if o.prompt.Some? then JStrings(o.prompt.value) else JNull];
    var withMax := if o.maxTokens != 0 then base["max_tokens" := JInt(o.maxTokens)] else base;
    var withTemp := if o.temperature != 0 then withMax["temperature" := JInt(o.temperature)] else withMax;
    var withN := if o.n != 0 then withTemp["n" := JInt(o.n)] else withTemp;
    if o.stop != [] then withN["stop" := JStrings(o.stop)] else withN
  }

  /** Reads options back from a JSON object the way `json.Unmarshal` fills
      a zero `CompletionOptions`: an absent key leaves its field zero. */
  function OptionsOfJson(fields: map<string, JsonValue>): CompletionOptions {
    CompletionOptions(
      if "model" in fields && fields["model"].JString? then fields["model"].s else "",
      if "prompt" in fields && fields["prompt"].JStrings? then Some(fields["prompt"].items) else None,
      if "max_tokens" in fields && fields["max_tokens"].JInt? then fields["max_tokens"].i else 0,
      if "temperature" in fields && fields["temperature"].JInt? then fields["temperature"].i else 0,
      if "n" in fields && fields["n"].JInt? then fields["n"].i else 0,
      if "stop" in fields && fields["stop"].JStrings? then fields["stop"].items else [])
  }

  /** Nothing is lost by leaving out the zero fields: reading the object
      back gives the options that were encoded. */
  lemma CompletionJsonRoundTrip(o: CompletionOptions)
    ensures OptionsOfJson(CompletionJson(o)) == o
  {
  }

  /** The request of an accepted completion: a JSON POST to `/completions`. */
  function CompletionRequest(e: Client.Engine, d: CompletionOptions): (req: Request)
    ensures req.verb == Post
    ensures req.url == e.apiBaseUrl + "/completions"
    ensures ContentTypeHeader in req.headers && req.headers[ContentTypeHeader] == JsonContentType
    ensures req.body == Json(CompletionJson(d))
    ensures Client.Credentialed(e, req.headers)
  {
    Client.NewReq(e, Post, e.apiBaseUrl + "/completions", "json", Some(Json(CompletionJson(d))))
  }

  /** `Completion`: validate, default, then a JSON POST to `/completions`. */
  function Completion(e: Client.Engine, o: CompletionOptions): (r: Client.Prepared<CompletionOptions>)
    ensures r.request.Success? <==> CompletionAccepted(o)
    ensures r.request.Failure? ==> r.opts == o && r.request.error == Client.Invalid(ValidateCompletion(o))
    ensures r.request.Success? ==> r.opts == CompletionDefaults(o) && r.request.value == CompletionRequest(e, r.opts)
  {
    var errs := ValidateCompletion(o);
    if errs != [] then Client.Prepared(o, Failure(Client.Invalid(errs)))
    else
      var d := CompletionDefaults(o);
      Client.Prepared(d, Success(CompletionRequest(e, d)))
  }

  /** Validation runs before the default, and the default is within the
      limit, so every request sent carries a non-zero budget of at most 4096
      — the caller's own budget when one was set. */
  lemma SentBudgetIsBounded(e: Client.Engine, o: CompletionOptions)
    requires Completion(e, o).request.Success?
    ensures
      var fields := Completion(e, o).request.value.body.fields;
      && "max_tokens" in fields && fields["max_tokens"].JInt?
      && fields["max_tokens"].i != 0 && fields["max_tokens"].i <= MaxTokensLimit
      && fields["max_tokens"].i == (if o.maxTokens == 0 then Client.DefaultMaxTokens else o.maxTokens)
  {
  }

  /** `max` alone bounds the budget from above: a negative budget passes the
      validator and is sent as it is. */
  lemma NegativeBudgetIsSent(e: Client.Engine, model: string, prompt: seq<string>, budget: int)
    requires model != "" && budget < 0
    ensures
      var r := Completion(e, CompletionOptions(model, Some(prompt), budget, 0, 0, []));
      && r.request.Success?
      && r.request.value.body.fields["max_tokens"] == JInt(budget)
  {
  }

  /** Defaults are idempotent: a second pass changes nothing. */
  lemma CompletionDefaultsIdempotent(o: CompletionOptions)
    ensures CompletionDefaults(CompletionDefaults(o)) == CompletionDefaults(o)
  {
  }

  /** Options refused by the validator never reach `doReq`: the engine's
      counter stays where it was and the validator's list is the error. */
  lemma RefusedOptionsAreNeverSent(e: Client.Engine, o: CompletionOptions, x: Client.Exchange)
    requires !CompletionAccepted(o)
    ensures
      var call := Client.Call(e, Completion(e, o).request, x);
      && call.0 == e
      && call.1 == Failure(Client.Invalid(ValidateCompletion(o)))
  {
  }

  /** A davinci completion with no budget, on a fresh engine: the request
      goes to the default base URL and carries exactly the model, the prompt
      and the 1024-token default. */
  lemma DavinciScenario(apiKey: string)
    ensures
      var o := CompletionOptions(Models.ModelDavinci, Some(["Say this is a test"]), 0, 0, 0, []);
      var r := Completion(Client.New(apiKey), o);
      && r.request.Success?
      && r.opts.maxTokens == 1024
      && r.request.value.url == "https://api.openai.com/v1/completions"
      && r.request.value.body == Json(map["model" := JString(Models.ModelDavinci),
                                          "prompt" := JStrings(["Say this is a test"]),
                                          "max_tokens" := JInt(1024)])
  {
  }
}

=== FILE: http.dfy ===
/** The abstract shape of an HTTP request as the client builds it: method,
    URL, header map and one of four body kinds. Byte-level encodings (JSON
    text, percent-escaping, multipart boundaries) are not modelled. */
module Http {

  type Byte = bv8

  datatype Method = Get | Post

  /** A Go `float32`, kept as its IEEE-754 bit pattern. */
  datatype Float32 = Float32(bits: bv32) {
    /** `f == 0` in Go: true of +0 and of -0, false of every other value (NaN included). */
    predicate IsZero() {
      bits & 0x7FFF_FFFF == 0
    }
  }

  /** The value of a multipart form field: literal text, or a float rendered
      with `%f` (the rendering itself is left abstract). */
  datatype FieldValue = Text(text: string) | Decimal(number: Float32)

  /** One part of a multipart form, in the order the writer emitted it. */
  datatype Part =
    | FormField(name: string, value: FieldValue)
    | FormFile(name: string, filename: string, content: seq<Byte>)

  /** A JSON value as `encoding/json` would produce it for the option structs. */
  datatype JsonValue = JString(s: string) | JInt(i: int) | JStrings(items: seq<string>) | JNull

  datatype Body =
    | Empty
    | Json(fields: map<string, JsonValue>)
    | UrlEncoded(pairs: seq<(string, string)>)
    | Multipart(parts: seq<Part>)

  datatype Request = Request(verb: Method, url: string, headers: map<string, string>, body: Body)

  // Header names in the canonical form `http.Header.Set` stores them under.
  const AuthorizationHeader := "Authorization"
  const OrganizationHeader := "Openai-Organization"
  const ContentTypeHeader := "Content-Type"

  const JsonContentType := "application/json"
  const FormContentType := "application/x-www-form-urlencoded"
}

=== FILE: images.dfy ===
/** images.go: the three image endpoints. Each validates the options, fills
    the defaults into the caller's value, and encodes it — as JSON for
    creation, as a key-sorted URL-encoded form for edits and variations. */
module Images {
  import opened Wrappers
  import opened Http
  import opened Binding
  import Client
  import Strconv
  import UrlValues

  const Size256 := "256x256"
  const Size512 := "512x512"
  const Size1024 := "1024x1024"
  const Sizes: seq<string> := [Size256, Size512, Size1024]

  const ResponseFormatUrl := "url"
  const ResponseFormatB64Json := "b64_json"
  const ResponseFormats: seq<string> := [ResponseFormatUrl, ResponseFormatB64Json]

  /** The count an image request may ask for. */
  predicate CountInRange(n: int) {
    1 <= n <= 10
  }

  // ---------------------------------------------------------------- create

  datatype ImageCreateOptions = ImageCreateOptions(prompt: string, n: int, size: string, responseFormat: string)

  /** The binding tags of `ImageCreateOptions`, as one predicate. */
  predicate CreateAccepted(o: ImageCreateOptions) {
    && o.prompt != ""
    && (o.n == 0 || CountInRange(o.n))
    && o.size in Sizes
    && (o.responseFormat == "" || o.responseFormat in ResponseFormats)
  }

  function ValidateCreate(o: ImageCreateOptions): (errs: seq<FieldError>)
    ensures errs == [] <==> CreateAccepted(o)
    ensures o.prompt == "" ==> FieldError("Prompt", "required") in errs
    ensures o.size !in Sizes ==> FieldError("Size", "oneof") in errs
  {
    Required("Prompt", o.prompt != "")
    + OmitEmpty(o.n == 0, Range("N", o.n, 1, 10))
    + OneOf("Size", o.size, Sizes)
    + OmitEmpty(o.responseFormat == "", OneOf("ResponseFormat", o.responseFormat, ResponseFormats))
  }

  /** The validator names exactly the fields that fail, each with the first
      of its tags that fails. */
  lemma CreateErrorsNameFailingFields(o: ImageCreateOptions)
    ensures
      var errs := ValidateCreate(o);
      && |errs| <= 4
      && (FieldError("Prompt", "required") in errs <==> o.prompt == "")
      && (FieldError("N", "min") in errs <==> o.n != 0 && o.n < 1)
      && (FieldError("N", "max") in errs <==> o.n > 10)
      && (FieldError("Size", "oneof") in errs <==> o.size !in Sizes)
      && (FieldError("ResponseFormat", "oneof") in errs <==> o.responseFormat != "" && o.responseFormat !in ResponseFormats)
  {
  }

  function CreateDefaults(o: ImageCreateOptions): (r: ImageCreateOptions)
    ensures r.prompt == o.prompt && r.n == o.n
    ensures r.size != "" && (o.size != "" ==> r.size == o.size)
    ensures r.responseFormat != "" && (o.responseFormat != "" ==> r.responseFormat == o.responseFormat)
    ensures o.size == "" ==> r.size == Size256
    ensures o.responseFormat == "" ==> r.responseFormat == ResponseFormatUrl
  {
    o.(size := if |o.size| == 0 then Size256 else o.size,
       responseFormat := if |o.responseFormat| == 0 then ResponseFormatUrl else o.responseFormat)
  }

  /** The JSON object `json.Marshal` makes of the options: `prompt` always,
      the other three only when not empty (`omitempty`). */
  function CreateJson(o: ImageCreateOptions): (fields: map<string, JsonValue>)
    ensures "prompt" in fields && fields["prompt"] == JString(o.prompt)
    ensures "n" in fields <==> o.n != 0
    ensures "size" in fields <==> o.size != ""
    ensures "response_format" in fields <==> o.responseFormat != ""
    ensures fields.Keys <= {"prompt", "n", "size", "response_format"}
  {
    var base := map["prompt" := JString(o.prompt)];
    var withN := if o.n != 0 then base["n" := JInt(o.n)] else base;
    var withSize := if o.size != "" then withN["size" := JString(o.size)] else withN;
    if o.responseFormat != "" then withSize["response_format" := JString(o.responseFormat)] else withSize
  }

  /** Reads creation options back from a JSON object the way
      `json.Unmarshal` fills a zero `ImageCreateOptions`. */
  function CreateOptionsOfJson(fields: map<string, JsonValue>): ImageCreateOptions {
    ImageCreateOptions(
      if "prompt" in fields && fields["prompt"].JString? then fields["prompt"].s else "",
      if "n" in fields && fields["n"].JInt? then fields["n"].i else 0,
      if "size" in fields && fields["size"].JString? then fields["size"].s else "",
      if "response_format" in fields && fields["response_format"].JString? then fields["response_format"].s else "")
  }

  /** Leaving out the empty fields loses nothing: the object reads back as
      the options it was made of. */
  lemma CreateJsonRoundTrip(o: ImageCreateOptions)
    ensures CreateOptionsOfJson(CreateJson(o)) == o
  {
  }

  /** `ImageCreate`: validate, default, then a JSON POST to `/images/generations`. */
  function ImageCreate(e: Client.Engine, o: ImageCreateOptions): (r: Client.Prepared<ImageCreateOptions>)
    ensures r.request.Success? <==> CreateAccepted(o)
    ensures r.request.Failure? ==> r.opts == o && r.request.error == Client.Invalid(ValidateCreate(o))
    ensures r.request.Success? ==> r.opts == CreateDefaults(o) && r.request.value == CreateRequest(e, r.opts)
  {
    var errs := ValidateCreate(o);
    if errs != [] then Client.Prepared(o, Failure(Client.Invalid(errs)))
    else
      var d := CreateDefaults(o);
      Client.Prepared(d, Success(CreateRequest(e, d)))
  }

  /** The request of an accepted creation: a JSON POST to `/images/generations`. */
  function CreateRequest(e: Client.Engine, d: ImageCreateOptions): (req: Request)
    ensures req.verb == Post
    ensures req.url == e.apiBaseUrl + "/images/generations"
    ensures ContentTypeHeader in req.headers && req.headers[ContentTypeHeader] == JsonContentType
    ensures req.body == Json(CreateJson(d))
    ensures Client.Credentialed(e, req.headers)
  {
    var url := e.apiBaseUrl + "/images/generations";
    Client.NewReq(e, Post, url, "json", Some(Json(CreateJson(d))))
  }

  /** Every request ImageCreate builds names a listed size and response
      format; only an empty response format is filled in, since an empty
      size never passes validation. */
  lemma CreateRequestIsWellFormed(e: Client.Engine, o: ImageCreateOptions)
    requires ImageCreate(e, o).request.Success?
    ensures ImageCreate(e, o).opts.size == o.size
    ensures ImageCreate(e, o).opts.responseFormat == (if o.responseFormat == "" then ResponseFormatUrl else o.responseFormat)
    ensures
      var fields := ImageCreate(e, o).request.value.body.fields;
      && "size" in fields && fields["size"].JString? && fields["size"].s in Sizes
      && "response_format" in fields && fields["response_format"].JString?
      && fields["response_format"].s in ResponseFormats
  {
  }

  /** `Size` carries no `omitempty`, so an empty size is refused before the
      `256x256` default could be filled in. */
  lemma CreateSizeDefaultIsUnreachable(e: Client.Engine, o: ImageCreateOptions)
    requires o.size == ""
    ensures ImageCreate(e, o).request.Failure?
    ensures FieldError("Size", "oneof") in ImageCreate(e, o).request.error.fields
    ensures ImageCreate(e, o).opts.size == ""
  {
  }

  // ------------------------------------------------------------------ edit

  datatype ImageEditOptions = ImageEditOptions(image: string, mask: string, prompt: string, n: int, size: string, responseFormat: string)

  predicate EditAccepted(o: ImageEditOptions) {
    && o.image != ""
    && o.prompt != "" && |o.prompt| <= 1000
    && CountInRange(o.n)
    && (o.size == "" || o.size in Sizes)
    && (o.responseFormat == "" || o.responseFormat in ResponseFormats)
  }

  function ValidateEdit(o: ImageEditOptions): (errs: seq<FieldError>)
    ensures errs == [] <==> EditAccepted(o)
    ensures o.n == 0 ==> FieldError("N", "min") in errs
    ensures |o.prompt| > 1000 ==> FieldError("Prompt", "max") in errs
  {
    Required("Image", o.image != "")
    + (if o.prompt == "" then Required("Prompt", false) else MaxLength("Prompt", o.prompt, 1000))
    + Range("N", o.n, 1, 10)
    + OmitEmpty(o.size == "", OneOf("Size", o.size, Sizes))
    + OmitEmpty(o.responseFormat == "", OneOf("ResponseFormat", o.responseFormat, ResponseFormats))
  }

  /** The checks `ValidateEdit` concatenates, one per field. */
  function EditChecks(o: ImageEditOptions): seq<seq<FieldError>> {
    [Required("Image", o.image != ""),
     if o.prompt == "" then Required("Prompt", false) else MaxLength("Prompt", o.prompt, 1000),
     Range("N", o.n, 1, 10),
     OmitEmpty(o.size == "", OneOf("Size", o.size, Sizes)),
     OmitEmpty(o.responseFormat == "", OneOf("ResponseFormat", o.responseFormat, ResponseFormats))]
  }

  lemma EditErrorsDecompose(o: ImageEditOptions)
    ensures |EditChecks(o)| == 5
    ensures forall x :: x in ValidateEdit(o) <==> exists k :: 0 <= k < 5 && x in EditChecks(o)[k]
  {
    var c := EditChecks(o);
    assert ValidateEdit(o) == c[0] + c[1] + c[2] + c[3] + c[4];
  }

  /** The fields checked first: Image and Prompt. */
  lemma EditErrorsFront(o: ImageEditOptions)
    ensures
      var errs := ValidateEdit(o);
      && (FieldError("Image", "required") in errs <==> o.image == "")
      && (FieldError("Prompt", "required") in errs <==> o.prompt == "")
      && (FieldError("Prompt", "max") in errs <==> |o.prompt| > 1000)
  {
    EditErrorsDecompose(o);
    var c := EditChecks(o);
    assert About(c[0], "Image") && About(c[1], "Prompt") && About(c[2], "N");
    assert About(c[3], "Size") && About(c[4], "ResponseFormat");
  }

  /** The fields checked last: N, Size and ResponseFormat. */
  lemma EditErrorsBack(o: ImageEditOptions)
    ensures
      var errs := ValidateEdit(o);
      && (FieldError("N", "min") in errs <==> o.n < 1)
      && (FieldError("N", "max") in errs <==> o.n > 10)
      && (FieldError("Size", "oneof") in errs <==> o.size != "" && o.size !in Sizes)
      && (FieldError("ResponseFormat", "oneof") in errs <==> o.responseFormat != "" && o.responseFormat !in ResponseFormats)
  {
    EditErrorsDecompose(o);
    var c := EditChecks(o);
    assert About(c[0], "Image") && About(c[1], "Prompt") && About(c[2], "N");
    assert About(c[3], "Size") && About(c[4], "ResponseFormat");
  }

  /** The validator names exactly the fields that fail, each with the first
      of its tags that fails. */
  lemma EditErrorsNameFailingFields(o: ImageEditOptions)
    ensures
      var errs := ValidateEdit(o);
      && |errs| <= 5
      && (FieldError("Image", "required") in errs <==> o.image == "")
      && (FieldError("Prompt", "required") in errs <==> o.prompt == "")
      && (FieldError("Prompt", "max") in errs <==> |o.prompt| > 1000)
      && (FieldError("N", "min") in errs <==> o.n < 1)
      && (FieldError("N", "max") in errs <==> o.n > 10)
      && (FieldError("Size", "oneof") in errs <==> o.size != "" && o.size !in Sizes)
      && (FieldError("ResponseFormat", "oneof") in errs <==> o.responseFormat != "" && o.responseFormat !in ResponseFormats)
  {
    EditErrorsFront(o);
    EditErrorsBack(o);
  }

  function EditDefaults(o: ImageEditOptions): (r: ImageEditOptions)
    ensures r.image == o.image && r.mask == o.mask && r.prompt == o.prompt
    ensures r.n != 0 && (o.n != 0 ==> r.n == o.n)
    ensures r.size != "" && (o.size != "" ==> r.size == o.size)
    ensures r.responseFormat != "" && (o.responseFormat != "" ==> r.responseFormat == o.responseFormat)
    ensures o.n == 0 ==> r.n == 1
    ensures o.size == "" ==> r.size == Size256
    ensures o.responseFormat == "" ==> r.responseFormat == ResponseFormatUrl
  {
    o.(n := if o.n == 0 then 1 else o.n,
       size := if |o.size| == 0 then Size256 else o.size,
       responseFormat := if |o.responseFormat| == 0 then ResponseFormatUrl else o.responseFormat)
  }

  /** The `url.Values` literal of `ImageEdit`, in the order it is written. */
  function EditValues(o: ImageEditOptions): seq<UrlValues.Pair> {
    [("image", o.image), ("mask", o.mask), ("prompt", o.prompt),
     ("n", Strconv.Itoa(o.n)), ("size", o.size), ("response_format", o.responseFormat)]
  }

  /** The encoded edit form. */
  function EditBody(o: ImageEditOptions): (b: Body)
    ensures b.UrlEncoded?
  {
    assert UrlValues.DistinctKeys(EditValues(o));
    UrlEncoded(UrlValues.Encode(EditValues(o)))
  }

  /** `ImageEdit`: validate, default, then a form POST to `/images/edits`. */
  function ImageEdit(e: Client.Engine, o: ImageEditOptions): (r: Client.Prepared<ImageEditOptions>)
    ensures r.request.Success? <==> EditAccepted(o)
    ensures r.request.Failure? ==> r.opts == o && r.request.error == Client.Invalid(ValidateEdit(o))
    ensures r.request.Success? ==> r.opts == EditDefaults(o) && r.request.value == EditRequest(e, r.opts)
  {
    var errs := ValidateEdit(o);
    if errs != [] then Client.Prepared(o, Failure(Client.Invalid(errs)))
    else
      var d := EditDefaults(o);
      Client.Prepared(d, Success(EditRequest(e, d)))
  }

  /** The request of an accepted edit: a form POST to `/images/edits`. */
  function EditRequest(e: Client.Engine, d: ImageEditOptions): (req: Request)
    ensures req.verb == Post
    ensures req.url == e.apiBaseUrl + "/images/edits"
    ensures ContentTypeHeader in req.headers && req.headers[ContentTypeHeader] == FormContentType
    ensures req.body == EditBody(d)
    ensures Client.Credentialed(e, req.headers)
  {
    var uri := e.apiBaseUrl + "/images/edits";
    Client.NewReq(e, Post, uri, "formData", Some(EditBody(d)))
  }

  /** The six keys of the edit form, in `Encode`'s order. */
  lemma EditPairsInKeyOrder(image: string, mask: string, prompt: string, n: string, size: string, rf: string)
    ensures UrlValues.Encode([("image", image), ("mask", mask), ("prompt", prompt), ("n", n), ("size", size), ("response_format", rf)])
         == [("image", image), ("mask", mask), ("n", n), ("prompt", prompt), ("response_format", rf), ("size", size)]
  {
    var values := [("image", image), ("mask", mask), ("prompt", prompt), ("n", n), ("size", size), ("response_format", rf)];
    var expected := [("image", image), ("mask", mask), ("n", n), ("prompt", prompt), ("response_format", rf), ("size", size)];
    assert UrlValues.LexLess("image", "mask") && UrlValues.LexLess("mask", "n") && UrlValues.LexLess("n", "prompt")
        && UrlValues.LexLess("prompt", "response_format") && UrlValues.LexLess("response_format", "size");
    assert UrlValues.SortedByKey(expected);
    assert forall q :: q in values <==> q in expected;
    UrlValues.SortedIsUnique(UrlValues.Encode(values), expected);
  }

  /** The edit form holds exactly six pairs in key order; `mask` is sent even
      when empty and `n` is the decimal rendering of the count. */
  lemma EditForm(e: Client.Engine, o: ImageEditOptions)
    requires EditAccepted(o)
    ensures
      var d := ImageEdit(e, o).opts;
      && ImageEdit(e, o).request.value.body.pairs ==
         [("image", o.image), ("mask", o.mask), ("n", Strconv.Itoa(o.n)), ("prompt", o.prompt),
          ("response_format", d.responseFormat), ("size", d.size)]
      && Strconv.ParseDecimal(Strconv.Itoa(o.n)) == Some(o.n)
  {
    var d := ImageEdit(e, o).opts;
    EditPairsInKeyOrder(d.image, d.mask, d.prompt, Strconv.Itoa(d.n), d.size, d.responseFormat);
    Strconv.ItoaRoundTrip(o.n);
  }

  /** Edit options that are accepted stay within the documented bounds, and
      their count is sent as given. */
  lemma AcceptedEditIsBounded(e: Client.Engine, o: ImageEditOptions)
    requires ValidateEdit(o) == []
    ensures ImageEdit(e, o).request.Success?
    ensures 1 <= o.n <= 10 && |o.prompt| <= 1000
    ensures ImageEdit(e, o).opts.n == o.n
    ensures ImageEdit(e, o).opts.size in Sizes
    ensures ImageEdit(e, o).opts.responseFormat in ResponseFormats
  {
  }

  /** `N` carries no `omitempty`, so a zero count is refused and the default
      count of one is never filled in. */
  lemma EditCountDefaultIsUnreachable(e: Client.Engine, o: ImageEditOptions)
    requires o.n == 0
    ensures ImageEdit(e, o).request.Failure? && ImageEdit(e, o).opts.n == 0
  {
  }

  // ------------------------------------------------------------- variation

  datatype ImageVariationOptions = ImageVariationOptions(image: string, n: int, size: string, responseFormat: string)

  predicate VariationAccepted(o: ImageVariationOptions) {
    && o.image != ""
    && CountInRange(o.n)
    && o.size in Sizes
    && (o.responseFormat == "" || o.responseFormat in ResponseFormats)
  }

  function ValidateVariation(o: ImageVariationOptions): (errs: seq<FieldError>)
    ensures errs == [] <==> VariationAccepted(o)
    ensures o.n == 0 ==> FieldError("N", "min") in errs
    ensures o.size == "" ==> FieldError("Size", "oneof") in errs
  {
    Required("Image", o.image != "")
    + Range("N", o.n, 1, 10)
    + OneOf("Size", o.size, Sizes)
    + OmitEmpty(o.responseFormat == "", OneOf("ResponseFormat", o.responseFormat, ResponseFormats))
  }

  /** The validator names exactly the fields that fail, each with the first
      of its tags that fails. */
  lemma VariationErrorsNameFailingFields(o: ImageVariationOptions)
    ensures
      var errs := ValidateVariation(o);
      && |errs| <= 4
      && (FieldError("Image", "required") in errs <==> o.image == "")
      && (FieldError("N", "min") in errs <==> o.n < 1)
      && (FieldError("N", "max") in errs <==> o.n > 10)
      && (FieldError("Size", "oneof") in errs <==> o.size !in Sizes)
      && (FieldError("ResponseFormat", "oneof") in errs <==> o.responseFormat != "" && o.responseFormat !in ResponseFormats)
  {
  }

  function VariationDefaults(o: ImageVariationOptions): (r: ImageVariationOptions)
    ensures r.image == o.image
    ensures r.n != 0 && (o.n != 0 ==> r.n == o.n)
    ensures r.size != "" && (o.size != "" ==> r.size == o.size)
    ensures r.responseFormat != "" && (o.responseFormat != "" ==> r.responseFormat == o.responseFormat)
    ensures o.n == 0 ==> r.n == 1
    ensures o.size == "" ==> r.size == Size256
    ensures o.responseFormat == "" ==> r.responseFormat == ResponseFormatUrl
  {
    o.(n := if o.n == 0 then 1 else o.n,
       size := if |o.size| == 0 then Size256 else o.size,
       responseFormat := if |o.responseFormat| == 0 then ResponseFormatUrl else o.responseFormat)
  }

  /** The `url.Values` literal of `ImageVariation`: the image goes under `model`. */
  function VariationValues(o: ImageVariationOptions): seq<UrlValues.Pair> {
    [("model", o.image), ("n", Strconv.Itoa(o.n)), ("size", o.size), ("response_format", o.responseFormat)]
  }

  /** The encoded variation form. */
  function VariationBody(o: ImageVariationOptions): (b: Body)
    ensures b.UrlEncoded?
  {
    assert UrlValues.DistinctKeys(VariationValues(o));
    UrlEncoded(UrlValues.Encode(VariationValues(o)))
  }

  /** `ImageVariation`: validate, default, then a form POST to `/images/variations`. */
  function ImageVariation(e: Client.Engine, o: ImageVariationOptions): (r: Client.Prepared<ImageVariationOptions>)
    ensures r.request.Success? <==> VariationAccepted(o)
    ensures r.request.Failure? ==> r.opts == o && r.request.error == Client.Invalid(ValidateVariation(o))
    ensures r.request.Success? ==> r.opts == VariationDefaults(o) && r.request.value == VariationRequest(e, r.opts)
  {
    var errs := ValidateVariation(o);
    if errs != [] then Client.Prepared(o, Failure(Client.Invalid(errs)))
    else
      var d := VariationDefaults(o);
      Client.Prepared(d, Success(VariationRequest(e, d)))
  }

  /** The request of an accepted variation: a form POST to `/images/variations`. */
  function VariationRequest(e: Client.Engine, d: ImageVariationOptions): (req: Request)
    ensures req.verb == Post
    ensures req.url == e.apiBaseUrl + "/images/variations"
    ensures ContentTypeHeader in req.headers && req.headers[ContentTypeHeader] == FormContentType
    ensures req.body == VariationBody(d)
    ensures Client.Credentialed(e, req.headers)
  {
    var uri := e.apiBaseUrl + "/images/variations";
    Client.NewReq(e, Post, uri, "formData", Some(VariationBody(d)))
  }

  /** The four keys of the variation form, in `Encode`'s order. */
  lemma VariationPairsInKeyOrder(image: string, n: string, size: string, rf: string)
    ensures UrlValues.Encode([("model", image), ("n", n), ("size", size), ("response_format", rf)])
         == [("model", image), ("n", n), ("response_format", rf), ("size", size)]
  {
    var values := [("model", image), ("n", n), ("size", size), ("response_format", rf)];
    var expected := [("model", image), ("n", n), ("response_format", rf), ("size", size)];
    assert UrlValues.LexLess("model", "n") && UrlValues.LexLess("n", "response_format")
        && UrlValues.LexLess("response_format", "size");
    assert UrlValues.SortedByKey(expected);
    assert forall q :: q in values <==> q in expected;
    UrlValues.SortedIsUnique(UrlValues.Encode(values), expected);
  }

  /** The variation form holds exactly four pairs in key order, the image
      reference under the key `model`. */
  lemma VariationForm(e: Client.Engine, o: ImageVariationOptions)
    requires VariationAccepted(o)
    ensures
      var d := ImageVariation(e, o).opts;
      ImageVariation(e, o).request.value.body.pairs ==
        [("model", o.image), ("n", Strconv.Itoa(o.n)), ("response_format", d.responseFormat), ("size", o.size)]
  {
    var d := ImageVariation(e, o).opts;
    VariationPairsInKeyOrder(d.image, Strconv.Itoa(d.n), d.size, d.responseFormat);
  }

  /** Every variation request that is sent names a listed size and response
      format; the caller's size and count are sent as given and only an
      empty response format is filled in. */
  lemma VariationRequestIsWellFormed(e: Client.Engine, o: ImageVariationOptions)
    requires ValidateVariation(o) == []
    ensures ImageVariation(e, o).request.Success?
    ensures ImageVariation(e, o).opts.size == o.size && ImageVariation(e, o).opts.n == o.n
    ensures ImageVariation(e, o).opts.responseFormat == (if o.responseFormat == "" then ResponseFormatUrl else o.responseFormat)
    ensures ImageVariation(e, o).opts.size in Sizes
    ensures ImageVariation(e, o).opts.responseFormat in ResponseFormats
  {
  }

  /** `N` and `Size` carry no `omitempty`: a zero count or an empty size is
      refused, so neither default is ever filled in. */
  lemma VariationDefaultsAreUnreachable(e: Client.Engine, o: ImageVariationOptions)
    requires o.n == 0 || o.size == ""
    ensures ImageVariation(e, o).request.Failure? && ImageVariation(e, o).opts == o
  {
  }

  /** Filling the defaults twice fills nothing more, and leaves accepted
      options accepted. */
  lemma DefaultsAreIdempotent(c: ImageCreateOptions, d: ImageEditOptions, v: ImageVariationOptions)
    ensures CreateDefaults(CreateDefaults(c)) == CreateDefaults(c)
    ensures EditDefaults(EditDefaults(d)) == EditDefaults(d)
    ensures VariationDefaults(VariationDefaults(v)) == VariationDefaults(v)
    ensures CreateAccepted(c) ==> CreateAccepted(CreateDefaults(c))
    ensures EditAccepted(d) ==> EditAccepted(EditDefaults(d))
    ensures VariationAccepted(v) ==> VariationAccepted(VariationDefaults(v))
  {
  }
}

=== FILE: models.dfy ===
/** models.go: listing the available models and retrieving one by id. Both
    are GET requests without a body. */
module Models {
  import opened Wrappers
  import opened Http
  import opened Binding
  import Client

  /** The `Model` constant the completion scenario uses. */
  const ModelDavinci := "davinci"

  /** `ListModels`: a GET to `/models` with no options and so no validation.
      The empty post type reaches the Content-Type header as it is. */
  function ListModels(e: Client.Engine): (req: Request)
    ensures req.verb == Get
    ensures req.url == e.apiBaseUrl + "/models"
    ensures req.body == Empty
    ensures ContentTypeHeader in req.headers && req.headers[ContentTypeHeader] == ""
    ensures Client.Credentialed(e, req.headers)
  {
    Client.NewReq(e, Get, e.apiBaseUrl + "/models", "", None)
  }

  datatype RetrieveModelOptions = RetrieveModelOptions(id: string)

  function ValidateRetrieve(o: RetrieveModelOptions): (errs: seq<FieldError>)
    ensures errs == [] <==> o.id != ""
    ensures errs != [] ==> errs == [FieldError("ID", "required")]
  {
    Required("ID", o.id != "")
  }

  /** `RetrieveModel`: the id is required and is appended to `/models/`
      as it is, without escaping. */
  function RetrieveModel(e: Client.Engine, o: RetrieveModelOptions): (r: Result<Request, Client.Error>)
    ensures r.Success? <==> o.id != ""
    ensures r.Failure? ==> r.error == Client.Invalid([FieldError("ID", "required")])
    ensures r.Success? ==> r.value.verb == Get && r.value.body == Empty
    ensures r.Success? ==> r.value.url == e.apiBaseUrl + "/models/" + o.id
    ensures r.Success? ==> ContentTypeHeader in r.value.headers && r.value.headers[ContentTypeHeader] == ""
    ensures r.Success? ==> Client.Credentialed(e, r.value.headers)
  {
    var errs := ValidateRetrieve(o);
    if errs != [] then Failure(Client.Invalid(errs))
    else Success(Client.NewReq(e, Get, e.apiBaseUrl + "/models/" + o.id, "", None))
  }

  /** The id is the URL's suffix after `/models/`: it can be read back from
      the URL, so two different ids never share a request URL. */
  lemma RetrieveUrlDeterminesId(e: Client.Engine, a: RetrieveModelOptions, b: RetrieveModelOptions)
    requires RetrieveModel(e, a).Success? && RetrieveModel(e, b).Success?
    ensures RetrieveModel(e, a).value.url == RetrieveModel(e, b).value.url <==> a.id == b.id
  {
    var prefix := e.apiBaseUrl + "/models/";
    if RetrieveModel(e, a).value.url == RetrieveModel(e, b).value.url {
      assert (prefix + a.id)[|prefix|..] == a.id;
      assert (prefix + b.id)[|prefix|..] == b.id;
    }
  }

  /** A retrieval and the listing differ only in their URL: the id is
      appended below the listing's path. */
  lemma RetrieveExtendsListing(e: Client.Engine, o: RetrieveModelOptions)
    requires o.id != ""
    ensures RetrieveModel(e, o).value == ListModels(e).(url := ListModels(e).url + "/" + o.id)
  {
    assert e.apiBaseUrl + "/models/" + o.id == e.apiBaseUrl + "/models" + "/" + o.id;
  }

  /** An empty id is refused, and a refused retrieval never reaches `doReq`. */
  lemma EmptyIdIsNeverSent(e: Client.Engine, x: Client.Exchange)
    ensures
      var call := Client.Call(e, RetrieveModel(e, RetrieveModelOptions("")), x);
      && call.0 == e
      && call.1 == Failure(Client.Invalid([FieldError("ID", "required")]))
  {
  }
}

=== FILE: moderation.dfy ===
/** moderation.go: classifying a text against the content policy. There is
    no options struct and no validation: any input string is sent. */
module Moderation {
  import opened Wrappers
  import opened Http
  import Client

  /** The anonymous struct `Moderate` encodes: a single `input` field. */
  function ModerationJson(input: string): (fields: map<string, JsonValue>)
    ensures fields.Keys == {"input"}
    ensures fields["input"] == JString(input)
  {
    map["input" := JString(input)]
  }

  /** Reads the input back from the JSON object. */
  function InputOfJson(fields: map<string, JsonValue>): Option<string> {
    if "input" in fields && fields["input"].JString? then Some(fields["input"].s) else None
  }

  lemma ModerationJsonRoundTrip(input: string)
    ensures InputOfJson(ModerationJson(input)) == Some(input)
  {
  }

  /** `Moderate`: a JSON POST to `/moderations` carrying the input. */
  function Moderate(e: Client.Engine, input: string): (req: Request)
    ensures req.verb == Post
    ensures req.url == e.apiBaseUrl + "/moderations"
    ensures ContentTypeHeader in req.headers && req.headers[ContentTypeHeader] == JsonContentType
    ensures req.body.Json? && req.body.fields.Keys == {"input"}
    ensures InputOfJson(req.body.fields) == Some(input)
    ensures Client.Credentialed(e, req.headers)
  {
    Client.NewReq(e, Post, e.apiBaseUrl + "/moderations", "json", Some(Json(ModerationJson(input))))
  }

  /** Every input is sent, the empty one included: the call always counts a
      request, and the request's body carries exactly that input. */
  lemma EveryInputIsSent(e: Client.Engine, input: string, x: Client.Exchange)
    ensures Client.Call(e, Success(Moderate(e, input)), x).0.requests == e.requests + 1
    ensures InputOfJson(Moderate(e, input).body.fields) == Some(input)
  {
    ModerationJsonRoundTrip(input);
  }
}

=== FILE: strconv.dfy ===
/** `strconv.Itoa`, the decimal rendering of the image count, and a
    reference parser that reads such a rendering back. */
module Strconv {
  import opened Wrappers

  predicate IsDigit(c: char) {
    '0' <= c <= '9'
  }

  function DigitChar(d: int): (c: char)
    requires 0 <= d < 10
    ensures IsDigit(c) && c as int - '0' as int == d
  {
    ('0' as int + d) as char
  }

  /** The decimal digits of `n`, most significant first, without leading zeros. */
  function Digits(n: nat): (s: string)
    ensures |s| >= 1
    ensures forall i :: 0 <= i < |s| ==> IsDigit(s[i])
    ensures n > 0 ==> s[0] != '0'
    ensures s[0] == '0' ==> |s| == 1
    decreases n
  {
    if n < 10 then [DigitChar(n)] else Digits(n / 10) + [DigitChar(n % 10)]
  }

  /** `strconv.Itoa`: a minus sign for negative values, then the digits. */
  function Itoa(n: int): (s: string)
    ensures |s| >= 1
    ensures n >= 0 <==> IsDigit(s[0])
    ensures n < 0 <==> s[0] == '-'
    ensures var k := if n < 0 then 1 else 0;
      && k < |s|
      && (forall i :: k <= i < |s| ==> IsDigit(s[i]))
      && (s[k] == '0' ==> s == "0")
  {
    if n < 0 then "-" + Digits(-n) else Digits(n)
  }

  /** The value of a string of digits. */
  function DigitsValue(s: string): nat
    requires forall i :: 0 <= i < |s| ==> IsDigit(s[i])
  {
    if |s| == 0 then 0
    else
      assert IsDigit(s[|s| - 1]);
      DigitsValue(s[..|s| - 1]) * 10 + (s[|s| - 1] as int - '0' as int)
  }

  /** Reads an optional minus sign followed by one or more digits. */
  function ParseDecimal(s: string): Option<int> {
    if |s| > 0 && s[0] == '-' then
      var t := s[1..];
      if |t| > 0 && forall i :: 0 <= i < |t| ==> IsDigit(t[i]) then Option<int>.Some(-(DigitsValue(t) as int)) else None
    else if |s| > 0 && forall i :: 0 <= i < |s| ==> IsDigit(s[i]) then Some(DigitsValue(s))
    else None
  }

  lemma {:induction false} DigitsValueOfDigits(n: nat)
    ensures DigitsValue(Digits(n)) == n
    decreases n
  {
    if n >= 10 {
      var s := Digits(n);
      var init := Digits(n / 10);
      assert s == init + [DigitChar(n % 10)];
      assert s[..|s| - 1] == init;
      DigitsValueOfDigits(n / 10);
    }
  }

  lemma ParseDigits(n: nat)
    ensures ParseDecimal(Digits(n)) == Some(n)
  {
    DigitsValueOfDigits(n);
  }

  lemma ParseNegativeDigits(n: int)
    requires n > 0
    ensures ParseDecimal("-" + Digits(n)) == Some(-n)
  {
    var s := "-" + Digits(n);
    assert s[0] == '-';
    assert s[1..] == Digits(n);
    DigitsValueOfDigits(n);
  }

  /** The rendering `Itoa` produces reads back as the number rendered. */
  lemma ItoaRoundTrip(n: int)
    ensures ParseDecimal(Itoa(n)) == Some(n)
  {
    if n < 0 {
      ParseNegativeDigits(-n);
    } else {
      ParseDigits(n);
    }
  }
}

=== FILE: urlvalues.dfy ===
/** `url.Values.Encode` as the image endpoints use it: every key holds one
    value, and the pairs come out sorted by key. Keys compare byte-wise in
    Go; UTF-8 preserves code-point order, so comparing characters agrees. */
module UrlValues {

  /** Strict lexicographic order on strings: a proper prefix comes first. */
  predicate LexLess(a: string, b: string)
    decreases |a|
  {
    if |b| == 0 then false
    else if |a| == 0 then true
    else if a[0] != b[0] then a[0] < b[0]
    else LexLess(a[1..], b[1..])
  }

  lemma {:induction false} LexLessIrreflexive(a: string)
    ensures !LexLess(a, a)
    decreases |a|
  {
    if |a| > 0 {
      LexLessIrreflexive(a[1..]);
    }
  }

  lemma {:induction false} LexLessTransitive(a: string, b: string, c: string)
    requires LexLess(a, b) && LexLess(b, c)
    ensures LexLess(a, c)
    decreases |a|
  {
    if |a| > 0 && a[0] == b[0] && b[0] == c[0] {
      LexLessTransitive(a[1..], b[1..], c[1..]);
    }
  }

  lemma {:induction false} LexLessTotal(a: string, b: string)
    requires a != b
    ensures LexLess(a, b) || LexLess(b, a)
    decreases |a|
  {
    if |a| > 0 && |b| > 0 && a[0] == b[0] {
      assert a == [a[0]] + a[1..] && b == [b[0]] + b[1..];
      LexLessTotal(a[1..], b[1..]);
    }
  }

  lemma LexLessAsymmetric(a: string, b: string)
    requires LexLess(a, b)
    ensures !LexLess(b, a)
  {
    if LexLess(b, a) {
      LexLessTransitive(a, b, a);
      LexLessIrreflexive(a);
    }
  }

  type Pair = (string, string)

  predicate DistinctKeys(ps: seq<Pair>) {
    forall i, j :: 0 <= i < j < |ps| ==> ps[i].0 != ps[j].0
  }

  /** Each key is less than the next one. */
  predicate SortedByKey(ps: seq<Pair>) {
    forall i :: 0 <= i < |ps| - 1 ==> LexLess(ps[i].0, ps[i + 1].0)
  }

  /** In a key-sorted list, the first key is less than every later key. */
  lemma {:induction false} FirstKeyIsLeast(ps: seq<Pair>)
    requires SortedByKey(ps)
    ensures forall j :: 0 < j < |ps| ==> LexLess(ps[0].0, ps[j].0)
    decreases |ps|
  {
    if |ps| > 2 {
      var tail := ps[1..];
      assert SortedByKey(tail) by {
        forall i | 0 <= i < |tail| - 1 ensures LexLess(tail[i].0, tail[i + 1].0) {
          assert tail[i] == ps[i + 1] && tail[i + 1] == ps[i + 2];
        }
      }
      FirstKeyIsLeast(tail);
      forall j | 1 < j < |ps| ensures LexLess(ps[0].0, ps[j].0) {
        assert tail[j - 1] == ps[j];
        LexLessTransitive(ps[0].0, ps[1].0, ps[j].0);
      }
    }
  }

  /** Places `p` before the first pair whose key is greater. */
  function Insert(p: Pair, ps: seq<Pair>): (r: seq<Pair>)
    requires SortedByKey(ps)
    requires forall q :: q in ps ==> q.0 != p.0
    ensures SortedByKey(r)
    ensures multiset(r) == multiset(ps) + multiset{p}
    ensures r[0] == p || (|ps| > 0 && r[0] == ps[0])
  {
    if |ps| == 0 then [p]
    else if LexLess(p.0, ps[0].0) then
      PrependKeepsSorted(p, ps);
      [p] + ps
    else
      LexLessTotal(p.0, ps[0].0);
      TailIsSorted(ps);
      var rest := Insert(p, ps[1..]);
      assert ps == [ps[0]] + ps[1..];
      PrependKeepsSorted(ps[0], rest);
      [ps[0]] + rest
  }

  lemma PrependKeepsSorted(p: Pair, ps: seq<Pair>)
    requires SortedByKey(ps)
    requires |ps| > 0 ==> LexLess(p.0, ps[0].0)
    ensures SortedByKey([p] + ps)
  {
    var r := [p] + ps;
    forall i | 0 <= i < |r| - 1 ensures LexLess(r[i].0, r[i + 1].0) {
      if i > 0 {
        assert r[i] == ps[i - 1] && r[i + 1] == ps[i];
      }
    }
  }

  lemma SameMultisetSameMembers(a: seq<Pair>, b: seq<Pair>)
    requires multiset(a) == multiset(b)
    ensures forall q :: q in a <==> q in b
  {
    forall q ensures q in a <==> q in b {
      assert q in a <==> q in multiset(a);
      assert q in b <==> q in multiset(b);
    }
  }

  /** `Encode`'s order: the pairs sorted by key. Percent-escaping and the
      `&`/`=` joining are not modelled. */
  function Encode(ps: seq<Pair>): (r: seq<Pair>)
    requires DistinctKeys(ps)
    ensures SortedByKey(r)
    ensures multiset(r) == multiset(ps)
    ensures forall q :: q in r <==> q in ps
  {
    if |ps| == 0 then []
    else
      var init := ps[..|ps| - 1];
      var last := ps[|ps| - 1];
      assert ps == init + [last];
      var sorted := Encode(init);
      assert forall q :: q in sorted ==> q.0 != last.0 by {
        forall q | q in sorted ensures q.0 != last.0 {
          assert q in multiset(init);
          var j :| 0 <= j < |init| && init[j] == q;
        }
      }
      var r := Insert(last, sorted);
      SameMultisetSameMembers(r, ps);
      r
  }

  lemma TailIsSorted(ps: seq<Pair>)
    requires SortedByKey(ps) && |ps| > 0
    ensures SortedByKey(ps[1..])
  {
    var tail := ps[1..];
    forall i | 0 <= i < |tail| - 1 ensures LexLess(tail[i].0, tail[i + 1].0) {
      assert tail[i] == ps[i + 1] && tail[i + 1] == ps[i + 2];
    }
  }

  lemma FirstPairIsMember(ps: seq<Pair>)
    requires |ps| > 0
    ensures ps[0] in ps
  {
  }

  /** The first pair of a key-sorted list does not occur again after it. */
  lemma FirstPairIsNotRepeated(ps: seq<Pair>)
    requires SortedByKey(ps) && |ps| > 0
    ensures forall q :: q in ps[1..] <==> q in ps && q != ps[0]
  {
    FirstKeyIsLeast(ps);
    LexLessIrreflexive(ps[0].0);
    assert ps == [ps[0]] + ps[1..];
    forall q | q in ps[1..] ensures q != ps[0] {
      var j :| 0 <= j < |ps[1..]| && ps[1..][j] == q;
      assert ps[j + 1] == q;
    }
  }

  /** Two non-empty key-sorted lists with the same pairs start alike. */
  lemma FirstPairsAgree(a: seq<Pair>, b: seq<Pair>)
    requires SortedByKey(a) && SortedByKey(b) && |a| > 0 && |b| > 0
    requires forall q :: q in a <==> q in b
    ensures a[0] == b[0]
  {
    FirstKeyIsLeast(a);
    FirstKeyIsLeast(b);
    assert a[0] in b && b[0] in a;
    if a[0] != b[0] {
      var k :| 0 <= k < |b| && b[k] == a[0];
      var m :| 0 <= m < |a| && a[m] == b[0];
      LexLessAsymmetric(b[0].0, a[0].0);
      assert false;
    }
  }

  /** Two key-sorted lists holding the same pairs are the same list: the
      order of `Encode`'s output is determined by the pairs alone. */
  lemma {:induction false} SortedIsUnique(a: seq<Pair>, b: seq<Pair>)
    requires SortedByKey(a) && SortedByKey(b)
    requires forall q :: q in a <==> q in b
    ensures a == b
    decreases |a|
  {
    if |a| == 0 {
      if |b| > 0 {
        FirstPairIsMember(b);
      }
    } else {
      assert a[0] in a;
      FirstPairsAgree(a, b);
      FirstPairIsNotRepeated(a);
      FirstPairIsNotRepeated(b);
      TailIsSorted(a);
      TailIsSorted(b);
      SortedIsUnique(a[1..], b[1..]);
      assert a == [a[0]] + a[1..] && b == [b[0]] + b[1..];
    }
  }
}

=== FILE: wrappers.dfy ===
/** Failure-compatible option and result types shared by every module. */
module Wrappers {

  /** `None` stands for Go's nil where a slice or interface value may be absent. */
  datatype Option<+T> = None | Some(value: T)

  /** The `(value, error)` pair of a Go function, as a sum. */
  datatype Result<+T, +E> = Success(value: T) | Failure(error: E) {

    predicate IsFailure() {
      Failure?
    }

    function PropagateFailure<U>(): Result<U, E>
      requires Failure?
    {
      Failure(error)
    }

    function Extract(): T
      requires Success?
    {
      value
    }
  }
}
